=== FILE: README.md ===
# Auto test recorder: test-plan model and traffic hook

This project models the core logic of a manual-testing helper. The desktop tool walks a tester through a test plan. The plan is an ordered list of modules (the tool calls them "functions"), and each module holds an ordered list of cases. A cursor `(current_module_id, current_case_id)` names the active case by the decimal text of its ids. Beside the tool, an intercepting proxy runs a hook on every HTTP response. The hook appends a record of the exchange to the `httpResult` list of the case the cursor file names.

Modules, one per file:

- `JsonValues` (`json_values.dfy`): JSON values with Python truthiness, and the double-encoded result fields. A result field is either `Encoded(v)`, a string holding the JSON text of `v`; or `Raw(v)`, a value stored as it is. A `Raw` value is a non-string JSON value such as the `[]` and `null` the reset writes, or a string that does not decode.
- `Ids` (`ids.dfy`): `str(int)` for ids, proved injective, so a cursor key names at most one id.
- `TestPlan` (`test_plan.dfy`): cases, modules, the cursor, the first-match search shared by the lookups and the hook, and `load_data`. `load_data` is a stable sort by id plus a defaulted `isTested`.
- `Navigation` (`navigation.dfy`): `prev_case`, `next_case`, `prev_function` and `next_function`, as functions from (plan, cursor) to cursor.
- `Status` (`status.dfy`):
  - `get_current_case` and `get_current_module_case`;
  - the progress count (a method with loops, checked against a recursive reference count);
  - `save_data` and `toggle_tested`.
- `Transforms` (`transforms.dfy`):
  - `reset_test_results`, `generate_import_json` and `init_error_json_from_export`;
  - the data pre-processing of `export_data`;
  - the data part of `append_screenshot_result`;
  - the screenshot file-name filter.
- `Proxy` (`proxy.dfy`): the proxy's `response` hook, `update_error_json_with_error_data` and `get_current_test_case`, and the cursor file the desktop tool writes.

Files are values in this model. Each operation takes the parsed document and returns the document it would write; `None` or `NotWritten` means nothing is written. The current time is a parameter. The confirmation prompt of `toggle_tested` is a boolean parameter.

The model follows the code as written, including these behaviours:

- `append_screenshot_result` updates the first matching case in *every* module whose id the cursor names. Its `break` leaves only the inner loop. The proxy hook, by contrast, returns after the first match.
- `next_case` and `prev_case` also loop over every module with the cursor's id. From a case key that names no case of the module, `next_case` moves to the first case and `prev_case` stays put.
- Position and round-trip properties are therefore proved under unique module ids (and unique case ids where positions inside a module matter). The functions themselves model duplicate ids as written.

## Model

| member | source | states |
|---|---|---|
| JsonValues.Member | python-source/mitmproxy_script.py:31 | a key lookup in a decoded object finds nothing exactly when no member has the key; otherwise it finds the value of the last member with that key |
| JsonValues.Encode | python-source/mitmproxy_script.py:86 | a list serialised into a result field is a non-empty string, and decoding it gives back the same value |
| Ids.IdTextInjective | python-source/tool-all-bak.py:505-507 | two ids with the same decimal text are equal, so a cursor key names at most one id |
| TestPlan.FirstNamed | python-source/tool-all-bak.py:571 | the result is the first position whose id the key names, or -1 when none is named; the same search serves cases and modules |
| TestPlan.FirstNamedDistinct | python-source/tool-all-bak.py:593-594 | with distinct ids, looking up the key of the element at position i finds i |
| TestPlan.IndexOf | python-source/tool-all-bak.py:571 | the result is the first position whose case id the key names, or -1 when no case is named |
| TestPlan.IndexOfUnique | python-source/tool-all-bak.py:571 | with unique case ids, looking up the key of the case at position i finds i |
| TestPlan.ModuleIndex | python-source/tool-all-bak.py:593-594 | the result is the first module position the key names, or -1 when none is named |
| TestPlan.ModuleIndexUnique | python-source/tool-all-bak.py:593-594 | with unique module ids, the key of module i finds i |
| TestPlan.FindCase | python-source/tool-all-bak.py:501-509 | the result is a (module, case) pair both cursor ids name, with no such pair earlier in plan order; None exactly when no pair matches |
| TestPlan.FindCaseShape | python-source/tool-all-bak.py:501-509 | the cursor's target depends only on the ids and their positions, not on any other member |
| TestPlan.SortBy | python-source/tool-all-bak.py:1736 | the result is ordered by the key and is a permutation of the input |
| TestPlan.DefaultTested | python-source/tool-all-bak.py:1740 | an existing `isTested` is kept unchanged; a missing one becomes the literal `false`; tested-ness is unchanged and nothing else changes |
| TestPlan.NormaliseModule | python-source/tool-all-bak.py:1738-1740 | the module's cases are ordered by id, each has `isTested`, and they are a permutation of the defaulted input cases |
| TestPlan.LoadData | python-source/tool-all-bak.py:1732-1743 | modules in ascending id order, each module's cases in ascending id order, every case has `isTested`, and the result is a permutation of the normalised input modules |
| TestPlan.SortBySorted | python-source/tool-all-bak.py:1736 | sorting an already ordered list leaves it unchanged |
| TestPlan.NormaliseModuleIdempotent | python-source/tool-all-bak.py:1738-1740 | normalising a normalised module changes nothing |
| TestPlan.LoadDataIdempotent | python-source/tool-all-bak.py:1732-1743 | reloading a loaded plan changes nothing, so the reload after each write is stable |
| Navigation.NextCaseIn | python-source/tool-all-bak.py:584-586 | with unique case ids, the new key is one position later; it stays on the last case; from a key naming no case it moves to the first case |
| Navigation.PrevCaseIn | python-source/tool-all-bak.py:571-573 | with unique case ids, the new key is one position earlier; it stays on the first case or on a key that names no case |
| Navigation.NextCase | python-source/tool-all-bak.py:579-590 | the cursor's module never changes; without both cursor ids set, the cursor is unchanged |
| Navigation.PrevCase | python-source/tool-all-bak.py:566-577 | the cursor's module never changes; without both cursor ids set, the cursor is unchanged |
| Navigation.CaseScan | python-source/tool-all-bak.py:568-576 | the loop over every module of `prev_case` / `next_case`: with no module named by the cursor the key is unchanged; otherwise the result is the old key or the id of a case in a module the cursor names |
| Navigation.CaseScanUnique | python-source/tool-all-bak.py:568-573 | with unique module ids, the loop over all modules is one step inside the module the cursor names, or nothing when none is named |
| Navigation.NextCasePosition | python-source/tool-all-bak.py:579-590 | the cursor's case moves exactly one position forward in the current module, stays at the last case, and stays put when no module is named |
| Navigation.PrevCasePosition | python-source/tool-all-bak.py:566-577 | the cursor's case moves exactly one position back in the current module, stays at the first case, and stays put when no module is named |
| Navigation.PrevAfterNextCase | python-source/tool-all-bak.py:566-590 | stepping forward then back returns to the starting cursor, unless it started on the last case |
| Navigation.NextAfterPrevCase | python-source/tool-all-bak.py:566-590 | stepping back then forward returns to the starting cursor, unless it started on the first case |
| Navigation.EnterModule | python-source/tool-all-bak.py:596-601 | the new cursor names module j; its case key names the module's first case, and there is no case key exactly when the module has no cases |
| Navigation.EnterModuleTarget | python-source/tool-all-bak.py:596-601 | with unique module ids, the new cursor's module is found at position j, and FindCase on it gives the module's first case |
| Navigation.PrevFunction | python-source/tool-all-bak.py:592-603 | at the first module, or naming no module, nothing changes; otherwise the cursor names the previous module and its first case, or no case when it has none |
| Navigation.NextFunction | python-source/tool-all-bak.py:605-616 | at the last module nothing changes; otherwise (naming no module counts as before the first) the cursor names the next module and its first case, or no case when it has none |
| Navigation.PrevFunctionPosition | python-source/tool-all-bak.py:592-603 | with unique module ids, the cursor's module moves exactly one position back, and the cursor's target is that module's first case |
| Navigation.NextFunctionPosition | python-source/tool-all-bak.py:605-616 | with unique module ids, the cursor's module moves exactly one position forward, and the cursor's target is that module's first case |
| Navigation.PrevAfterNextFunction | python-source/tool-all-bak.py:592-616 | moving to the next module and back returns to the starting module, on its first case |
| Navigation.NextAfterPrevFunction | python-source/tool-all-bak.py:592-616 | moving to the previous module and forward returns to the starting module, on its first case |
| Status.GetCurrentCase | python-source/tool-all-bak.py:501-509 | a case is returned exactly when both cursor ids are set and some case matches both ids; it is the first such case |
| Status.GetCurrentModuleCase | python-source/tool-all-bak.py:912-919 | when a case matches, the result is the name of the module holding the first match in plan order, that case's 1-based position p with 1 <= p <= total, and the module's case count; otherwise the "-" triple |
| Status.CountRemaining | python-source/tool-all-bak.py:926-929 | a module's count of untested cases is at most its length, and zero exactly when every case is tested |
| Status.RemainingBounds | python-source/tool-all-bak.py:921-932 | remaining modules are at most remaining cases and at most the module count, and one is zero exactly when the other is |
| Status.GetRemainingModulesCases | python-source/tool-all-bak.py:921-932 | the loops count the untested cases and the modules with at least one of them, and the two counts obey the bounds above |
| Status.SyncCompletion | python-source/tool-all-bak.py:515 | `completion` becomes 1 for a tested case and 0 otherwise; no other member changes |
| Status.SaveData | python-source/tool-all-bak.py:511-515 | every case's `completion` agrees with its tested flag; ids, positions and all other members are kept |
| Status.SaveDataIdempotent | python-source/tool-all-bak.py:511-515 | saving twice gives the same plan as saving once |
| Status.SaveDataKeepsSynced | python-source/tool-all-bak.py:511-515 | a plan already in sync is left as it is |
| Status.Flip | python-source/tool-all-bak.py:468-469 | the tested flag is negated and stored as a boolean, and `completion` matches it; nothing else changes |
| Status.ToggleTested | python-source/tool-all-bak.py:456-470 | with no current case, or when declined, nothing changes; otherwise only the current case is flipped, and every case is saved in sync |
| Status.SaveAfterSet | python-source/tool-all-bak.py:468-470 | saving after the current case was replaced keeps that case as set, syncs every other case, and keeps the plan's shape |
| Status.ToggleKeepsTarget | python-source/tool-all-bak.py:456-470 | toggling never changes which case the cursor names |
| Status.ToggleCurrent | python-source/tool-all-bak.py:456-470 | after a confirmed toggle the current case is the old current case flipped |
| Status.FlipTwice | python-source/tool-all-bak.py:468-469 | flipping twice restores tested-ness, and a boolean flag exactly |
| Status.ToggleTwice | python-source/tool-all-bak.py:456-470 | toggling twice restores the current case's tested state, and restores a boolean flag exactly |
| Transforms.UntestedAllRemaining | python-source/tool-all-bak.py:921-932 | on a plan with every case untested, the remaining counts are the total case count and the number of non-empty modules |
| Transforms.ResetCase | python-source/tool-all-bak.py:1149-1151 | `httpResult` becomes an empty list, `imageResult` null and `isTested` false; nothing else changes |
| Transforms.ResetTestResults | python-source/tool-all-bak.py:1141-1154 | every case is cleared and untested; module and case ids, names, order and other members are kept; all cases count as remaining |
| Transforms.ResetKeepsCompletion | python-source/tool-all-bak.py:1147-1154 | the reset leaves every case's `completion` as it was, so a saved plan with a tested case is left out of sync until the next save |
| Transforms.ResetThenSave | python-source/tool-all-bak.py:511-515 | `save_data` applied directly to a reset plan would set every case's `completion` to 0; the tool itself saves only from `toggle_tested` |
| Transforms.LoadDataKeepsUntested | python-source/tool-all-bak.py:1732-1741 | reloading a plan whose cases are all untested leaves them all untested, since `load_data` only reorders and keeps an existing `isTested` |
| Transforms.ToggleAfterReset | python-source/tool-all-bak.py:456-470 | after a reset and reload, a confirmed toggle leaves the toggled case tested with `completion` 1 and every other case untested with `completion` 0; with no current case nothing changes |
| Transforms.MarkUntested | python-source/tool-all-bak.py:1039 | only `isTested` changes, to false |
| Transforms.GenerateImportJson | python-source/tool-all-bak.py:1032-1044 | nothing is written when the source cannot be read; otherwise the written plan differs from the source only in `isTested` = false on every case |
| Transforms.InitErrorJsonFromExport | python-source/tool-all-bak.py:945-954 | the written plan differs from the exported one only in `isTested` = false on every case, and every case counts as remaining |
| Transforms.ExportCase | python-source/tool-all-bak.py:1195-1198 | a falsy or missing `httpResult` becomes null and a truthy one is kept; a missing or null `completion` becomes 0 and any other is kept; nothing else changes |
| Transforms.ExportCopy | python-source/tool-all-bak.py:1188-1198 | the exported copy keeps ids, names, order and all other members; a truthy `httpResult` and a present non-null `completion` are kept, otherwise they become null and 0; the tool's plan is an input and is not changed |
| Transforms.ExportCopyIdempotent | python-source/tool-all-bak.py:1193-1198 | pre-processing an exported copy again changes nothing |
| Transforms.ImageHistory | python-source/tool-all-bak.py:1526-1534 | the old list is empty for an absent, falsy or undecodable field, [x] for a decoded non-list x, and the decoded list otherwise; there is none (an error) for a truthy non-string field |
| Transforms.WithBug | python-source/tool-all-bak.py:1537-1538 | the case's `imageResult` decodes to the old list followed by the bug record; nothing else changes |
| Transforms.AppendInModule | python-source/tool-all-bak.py:1523-1539 | only the first case the key names gets the record; an error occurs exactly when that case's field cannot be read |
| Transforms.AppendToModule | python-source/tool-all-bak.py:1522-1539 | a module the cursor's module id names gets the record on the first case the case id names; any other module is unchanged |
| Transforms.AppendScreenshotResult | python-source/tool-all-bak.py:1510-1543 | in every targeted module the first named case gets the record, and every other case, name and member is unchanged; nothing is written exactly when a targeted field raises |
| Transforms.AppendScreenshotSingle | python-source/tool-all-bak.py:1521-1539 | with unique module ids, only the cursor's case changes and its decoded list grows by exactly one; with no match the plan is unchanged |
| Transforms.TargetedIsFound | python-source/tool-all-bak.py:1521-1524 | with unique module ids, the only module the loops reach is the one FindCase picks, at FindCase's case; with no match no module is reached |
| Transforms.ScreenshotName | python-source/tool-all-bak.py:677 | a screenshot's file name passes the filter that reset and export apply |
| Transforms.ScreenshotFiles | python-source/tool-all-bak.py:1160 | the result is the listed names with the `screenshot_` prefix and `.png` suffix, each as often as listed, in listing order |
| Proxy.HeaderLines | python-source/mitmproxy_script.py:44 | one "name:value" string per request header, in header order |
| Proxy.BuildRecord | python-source/mitmproxy_script.py:42-51 | success exactly when the status is 200; the result is a prefix of the response text of length min(1000, len); data is the query when non-empty, else the body; one header line per header |
| Proxy.RecordFor | python-source/mitmproxy_script.py:39-41 | a record is built exactly when the Content-Type contains one of the four recorded types as a substring |
| Proxy.RecordJsonAsWritten | python-source/mitmproxy_script.py:46 | serialising the record fails exactly when its data is a query view |
| Proxy.RecordJson | python-source/mitmproxy_script.py:42-51 | the serialised record carries the success flag and the truncated result; a body-text record serialises as written, and a query becomes an object of its parameters |
| Proxy.GetCurrentTestCase | python-source/mitmproxy_script.py:26-34 | the two ids from the cursor file; two nulls when the file is unreadable, is not an object, or lacks either key |
| Proxy.CursorFile | python-source/tool-all-bak.py:713-718 | the cursor file the tool writes is read back by the hook as the same two ids |
| Proxy.CursorFileRoundTrip | python-source/mitmproxy_script.py:26-34 | the hook recovers the cursor the tool last wrote to the file, and sees both ids set exactly when that cursor has both set |
| Proxy.HttpHistory | python-source/mitmproxy_script.py:75-83 | the old list is the decoded value for a string that decodes, empty for one that does not, the list itself, [x] for a truthy non-list x, and empty for a falsy value |
| Proxy.Listed | python-source/mitmproxy_script.py:82-83 | a list is kept; a truthy non-list becomes a one-element list; a falsy one becomes empty |
| Proxy.WithError | python-source/mitmproxy_script.py:85-86 | the case's `httpResult` decodes to the old list followed by the record; nothing else changes |
| Proxy.UpdateErrorJson | python-source/mitmproxy_script.py:57-98 | nothing is written without the plan file, with an id unset, or with no matching case; otherwise only the first matching case changes, and its decoded list grows by one |
| Proxy.UpdateTargetsCurrentCase | python-source/mitmproxy_script.py:68-92 | with the cursor file the tool last wrote from a cursor, the hook writes exactly when that cursor names a case, and it writes to that case |
| Proxy.ResponseHookAsWritten | python-source/mitmproxy_script.py:37-54 | nothing is written for an unrecorded Content-Type, nor for any request with a query |
| Proxy.QueryRequestDropped | python-source/mitmproxy_script.py:46 | a JSON response to a request with a query, while the cursor names an existing case, is not recorded by the hook as written, and is recorded by the corrected hook |
| Proxy.ResponseHook | python-source/mitmproxy_script.py:37-54 | nothing is written for an unrecorded Content-Type; otherwise the built record goes to the update; without a query it agrees with the hook as written |
| Proxy.ResponseRecordsCurrentCase | python-source/mitmproxy_script.py:37-54 | with the cursor file the tool last wrote from a cursor, a recorded response is written exactly when that cursor names a case |

## Left out

- The GUI is not modelled: widgets, status windows, tree icons, settings dialogs and window geometry (which uses float multipliers). Modal dialogs are left out; the one that gates logic is the `confirmed` input of `Status.ToggleTested`.
- Selenium start-up and its polling thread, the hotkey thread, the watchdog screenshot observer, and starting and stopping the proxy process are left out. They are foreign calls and concurrency.
- File reading and writing, the zip archive and file deletion are left out. Documents are values passed in and returned. `load_data` returns `[]` when the file is missing; that branch is file I/O and is not modelled. The screenshot file-name filter is modelled as a predicate.
- Clocks are left out. The proxy's formatted time is a parameter, and the screenshot timestamp is an integer parameter.
- The JSON text format is not modelled: numbers are integers only and floats are left out. A result field is either an encoding of a known value, a non-string JSON value stored as it is, or text that does not decode.
- Header lookup in the proxy library is left out. It matches names case-insensitively across repeated headers, so the Content-Type value is an input, and request headers are the list of (name, value) pairs the library yields.
- Lost updates are left out. The tool and the proxy both rewrite `import.json` without locking; the model has one sequential writer.
- Proxy.CursorFileRoundTrip, Proxy.UpdateTargetsCurrentCase, Proxy.ResponseRecordsCurrentCase: these assume the cursor file holds the cursor the tool last wrote, not necessarily the one it shows. The tool writes the file only after a toggle or a case or module step (tool-all-bak.py:471, 574, 587, 602, 615, 785). Selecting a case in the tree moves the tool's cursor without writing the file (tool-all-bak.py:1289-1290). After that, the hook keeps recording into the last written case until the next write; the model does not state the relation between the shown and written cursors.
- Ids are integers only. The source also takes string ids: it compares them through `str()` and sorts them as strings in `load_data`. The model does not cover string ids, a missing `id`, or ids of mixed types, which make `load_data`'s sort raise.
- A missing `caseVoList` is an empty case list. A `caseVoList` that is `null` is not modelled. `prev_function` and `next_function` treat it as no cases (tool-all-bak.py:598, 611). The `.get("caseVoList", [])` loops (tool-all-bak.py:506, 514, 926) raise `TypeError` on it. `load_data` raises on a module whose `caseVoList` is missing or `null` (tool-all-bak.py:1738).
- Start-up without a plan is not modelled. When `import.json` is absent, `self.data` stays `None` (tool-all-bak.py:346-347, 425-430), and `prev_function` and `next_function` raise on it (tool-all-bak.py:593-594, 606-607). In the model a plan is always loaded.
- Transforms.ResetTestResults: the reset does not recompute `completion`. A tested case keeps `completion` 1 until the next save, and the model states this as written (`Transforms.ResetKeepsCompletion`). The only save is a confirmed `toggle_tested`, which leaves the toggled case at 1 and every other case at 0 (`Transforms.ToggleAfterReset`).
- TestPlan.SortBy: the contract states ordering and permutation but not stability. Python's sort is stable, which fixes the order of cases that share an id; the model does not state that order.
- Navigation.NextCasePosition: the position properties, and the round trips built on them, are proved only for unique module and case ids. With duplicate module ids the source steps once per matching module, and `Navigation.NextCase` models that without a position contract.
- Navigation.NextFunctionPosition: like Navigation.PrevFunctionPosition, it is proved only for unique module ids. With duplicate ids, `Navigation.NextFunction` still names the next module by its id text, but that text can find an earlier module.
- Transforms.AppendScreenshotSingle: the one-case-changes property is proved only for unique module ids. `Transforms.AppendScreenshotResult` states the general behaviour: every module with the cursor's id is updated.
- Status.ToggleTwice: a non-boolean `isTested` (say `1`) comes back as a boolean of the same truthiness, not as the original value, because `not` yields a boolean. The lemma states exactly that.

## Findings

| source | as written | input that shows it | evidently intended | confidence | as-written member | corrected member |
|---|---|---|---|---|---|---|
| python-source/mitmproxy_script.py:46 | `data` is `request.query or request.text`. A non-empty query is the library's multi-dict view, which `json.dumps` at line 86 cannot serialise. The TypeError is caught at line 97 and logged, so nothing is written | a GET to `http://h/a?x=1` answered with `application/json` while the cursor names an existing case | every response with a recorded Content-Type is appended to the current case, with the query serialised as its parameters | medium, not executed | Proxy.ResponseHookAsWritten, Proxy.QueryRequestDropped | Proxy.ResponseHook |

=== FILE: ids.dfy ===
/** Python's `str(id)` on an integer id: the decimal rendering the cursor keys are
    compared against. */
module Ids {

  function DigitChar(d: int): (c: char)
    requires 0 <= d < 10
    ensures '0' <= c <= '9'
    ensures c as int - '0' as int == d
  {
    ('0' as int + d) as char
  }

  /** Decimal digits of a natural number, most significant first, no leading zero. */
  function Digits(n: nat): (r: string)
    ensures |r| >= 1
    ensures n >= 10 ==> |r| >= 2
    ensures forall i :: 0 <= i < |r| ==> '0' <= r[i] <= '9'
    decreases n
  {
    if n < 10 then [DigitChar(n)] else Digits(n / 10) + [DigitChar(n % 10)]
  }

  /** `str(n)` for an int. */
  function IdText(n: int): (r: string)
    ensures r != []
    ensures r[0] == '-' <==> n < 0
  {
    if n < 0 then "-" + Digits(-n) else Digits(n)
  }

  lemma {:induction false} DigitsInjective(a: nat, b: nat)
    requires Digits(a) == Digits(b)
    ensures a == b
    decreases a
  {
    if a < 10 && b < 10 {
      assert Digits(a)[0] == DigitChar(a) && Digits(b)[0] == DigitChar(b);
    } else if a >= 10 && b >= 10 {
      var da, db := Digits(a / 10), Digits(b / 10);
      assert Digits(a) == da + [DigitChar(a % 10)];
      assert Digits(b) == db + [DigitChar(b % 10)];
      assert |da| == |db|;
      assert da == Digits(a)[..|da|] == Digits(b)[..|db|] == db;
      assert DigitChar(a % 10) == Digits(a)[|da|] == Digits(b)[|db|] == DigitChar(b % 10);
      DigitsInjective(a / 10, b / 10);
    }
  }

  /** Distinct ids have distinct texts, so a key names at most one id. */
  lemma IdTextInjective(a: int, b: int)
    requires IdText(a) == IdText(b)
    ensures a == b
  {
    if a < 0 && b < 0 {
      assert Digits(-a) == IdText(a)[1..] == IdText(b)[1..] == Digits(-b);
      DigitsInjective(-a, -b);
    } else if a >= 0 && b >= 0 {
      DigitsInjective(a, b);
    }
  }
}

=== FILE: json_values.dfy ===
/** JSON values as the test plan stores them, Python truthiness on them, and the
    double-encoded result fields (a JSON document stored as a string inside the
    plan document). The JSON text format itself is not modelled: a string field
    is either the encoding of a known value or text that does not decode. */
module JsonValues {

  datatype Option<+T> = None | Some(value: T) {
    function GetOr(default: T): T {
      match this
      case Some(v) => v
      case None => default
    }
  }

  /** A JSON value; numbers are integers. Objects keep their members in order. */
  datatype Json =
    | Null
    | Bool(b: bool)
    | Num(n: int)
    | Str(s: string)
    | Arr(items: seq<Json>)
    | Obj(members: seq<(string, Json)>)

  /** Python truthiness of a value decoded from JSON. */
  predicate Truthy(v: Json) {
    match v
    case Null => false
    case Bool(b) => b
    case Num(n) => n != 0
    case Str(s) => s != ""
    case Arr(items) => |items| > 0
    case Obj(members) => |members| > 0
  }

  /** `obj[key]` on a decoded JSON object: with repeated keys the last one wins. */
  function Member(members: seq<(string, Json)>, key: string): (r: Option<Json>)
    ensures r.None? <==> forall i :: 0 <= i < |members| ==> members[i].0 != key
    ensures r.Some? ==>
      exists i :: 0 <= i < |members| && members[i] == (key, r.value)
        && forall j :: i < j < |members| ==> members[j].0 != key
    decreases |members|
  {
    if |members| == 0 then None
    else if members[|members| - 1].0 == key then Some(members[|members| - 1].1)
    else
      var r := Member(members[..|members| - 1], key);
      assert forall i :: 0 <= i < |members| - 1 ==> members[..|members| - 1][i] == members[i];
      r
  }

  /** The member found is the last one with the key. */
  lemma MemberLast(members: seq<(string, Json)>, i: int, key: string)
    requires 0 <= i < |members| && members[i].0 == key
    requires forall j :: i < j < |members| ==> members[j].0 != key
    ensures Member(members, key) == Some(members[i].1)
  {
  }

  /** A result field of a case. `Encoded(v)` is a string holding the JSON text of
      `v`; `Raw(v)` is a value stored directly, and `Raw(Str(s))` is a string whose
      text is not valid JSON. */
  datatype Field = Raw(v: Json) | Encoded(payload: Json)

  predicate IsText(f: Field) {
    f.Encoded? || f.v.Str?
  }

  /** Truthiness of a field; JSON text is never empty, so an encoding is truthy. */
  predicate FieldTruthy(f: Field) {
    match f
    case Raw(v) => Truthy(v)
    case Encoded(_) => true
  }

  /** `json.loads` on a string field: the decoded value, or None on a decode error. */
  function Decode(f: Field): Option<Json>
    requires IsText(f)
  {
    match f
    case Encoded(v) => Some(v)
    case Raw(_) => None
  }

  /** `json.dumps` of a value into a string field. */
  function Encode(v: Json): (f: Field)
    ensures IsText(f) && FieldTruthy(f)
    ensures Decode(f) == Some(v)
  {
    Encoded(v)
  }
}

=== FILE: navigation.dfy ===
/** Cursor movement: `prev_case` / `next_case` move within the current module,
    `prev_function` / `next_function` move between modules. Each is a pure
    function from (plan, cursor) to the new cursor; the plan never changes. */
module Navigation {
  import opened JsonValues
  import opened Ids
  import opened TestPlan

  /** `r` is the id text of one of `cases`. */
  predicate KeyOf(cases: seq<Case>, r: string) {
    exists k :: 0 <= k < |cases| && r == IdText(cases[k].id)
  }

  /** The case key after one module's step forward: the case after the one the
      key names, or the first case when the key names none. */
  function NextCaseIn(cases: seq<Case>, key: string): (r: string)
    ensures var p := IndexOf(cases, Some(key));
      UniqueCaseIds(cases) ==> IndexOf(cases, Some(r)) == if p < |cases| - 1 then p + 1 else p
    ensures IndexOf(cases, Some(key)) == |cases| - 1 ==> r == key
    ensures r == key || KeyOf(cases, r)
  {
    var p := IndexOf(cases, Some(key));
    if p < |cases| - 1 then
      var r := IdText(cases[p + 1].id);
      if UniqueCaseIds(cases) then IndexOfUnique(cases, p + 1); r else r
    else key
  }

  /** The case key after one module's step back; a key that names no case stays. */
  function PrevCaseIn(cases: seq<Case>, key: string): (r: string)
    ensures var p := IndexOf(cases, Some(key));
      UniqueCaseIds(cases) ==> IndexOf(cases, Some(r)) == if p > 0 then p - 1 else p
    ensures IndexOf(cases, Some(key)) <= 0 ==> r == key
    ensures r == key || KeyOf(cases, r)
  {
    var p := IndexOf(cases, Some(key));
    if p > 0 then
      var r := IdText(cases[p - 1].id);
      if UniqueCaseIds(cases) then IndexOfUnique(cases, p - 1); r else r
    else key
  }

  /** The loop over every module of `next_case` / `prev_case`: each module named by
      `mkey` moves the case key once (forward when `forward`). */
  function CaseScan(plan: Plan, mkey: string, key: string, forward: bool): (r: string)
    ensures (forall j :: 0 <= j < |plan| ==> IdText(plan[j].id) != mkey) ==> r == key
    ensures r == key || exists j :: 0 <= j < |plan| && IdText(plan[j].id) == mkey && KeyOf(plan[j].cases, r)
    decreases |plan|
  {
    if |plan| == 0 then key
    else
      var key' :=
        if IdText(plan[0].id) == mkey then
          (if forward then NextCaseIn(plan[0].cases, key) else PrevCaseIn(plan[0].cases, key))
        else key;
      CaseScan(plan[1..], mkey, key', forward)
  }

  /** When module `mi` is the only one the key names, the scan is one step in it. */
  lemma {:induction false} CaseScanSingle(plan: Plan, mkey: string, key: string, forward: bool, mi: int)
    requires -1 <= mi < |plan|
    requires forall j :: 0 <= j < |plan| ==> (IdText(plan[j].id) == mkey <==> j == mi)
    ensures CaseScan(plan, mkey, key, forward) ==
      if mi == -1 then key
      else if forward then NextCaseIn(plan[mi].cases, key)
      else PrevCaseIn(plan[mi].cases, key)
    decreases |plan|
  {
    if |plan| > 0 {
      assert forall j :: 1 <= j < |plan| ==> plan[1..][j - 1] == plan[j];
      if mi == 0 {
        var key' := if forward then NextCaseIn(plan[0].cases, key) else PrevCaseIn(plan[0].cases, key);
        CaseScanSingle(plan[1..], mkey, key', forward, -1);
      } else {
        CaseScanSingle(plan[1..], mkey, key, forward, if mi == -1 then -1 else mi - 1);
      }
    }
  }

  /** `next_case`. */
  function NextCase(plan: Plan, cur: Cursor): (r: Cursor)
    ensures r.moduleKey == cur.moduleKey
    ensures !(Selected(cur.moduleKey) && Selected(cur.caseKey)) ==> r == cur
  {
    if Selected(cur.moduleKey) && Selected(cur.caseKey) then
      cur.(caseKey := Some(CaseScan(plan, cur.moduleKey.value, cur.caseKey.value, true)))
    else cur
  }

  /** `prev_case`. */
  function PrevCase(plan: Plan, cur: Cursor): (r: Cursor)
    ensures r.moduleKey == cur.moduleKey
    ensures !(Selected(cur.moduleKey) && Selected(cur.caseKey)) ==> r == cur
  {
    if Selected(cur.moduleKey) && Selected(cur.caseKey) then
      cur.(caseKey := Some(CaseScan(plan, cur.moduleKey.value, cur.caseKey.value, false)))
    else cur
  }

  /** With unique module ids, the scan reduces to the module the cursor names. */
  lemma CaseScanUnique(plan: Plan, cur: Cursor, forward: bool)
    requires UniqueModuleIds(plan)
    requires Selected(cur.moduleKey)
    ensures var mi := ModuleIndex(plan, cur.moduleKey);
      CaseScan(plan, cur.moduleKey.value, cur.caseKey.GetOr(""), forward) ==
        if mi == -1 then cur.caseKey.GetOr("")
        else if forward then NextCaseIn(plan[mi].cases, cur.caseKey.GetOr(""))
        else PrevCaseIn(plan[mi].cases, cur.caseKey.GetOr(""))
  {
    var mi := ModuleIndex(plan, cur.moduleKey);
    forall j | 0 <= j < |plan|
      ensures IdText(plan[j].id) == cur.moduleKey.value <==> j == mi
    {
      if IdText(plan[j].id) == cur.moduleKey.value && j != mi {
        assert mi != -1 && mi < j;
        IdTextInjective(plan[j].id, plan[mi].id);
      }
    }
    CaseScanSingle(plan, cur.moduleKey.value, cur.caseKey.GetOr(""), forward, mi);
  }

  /** `next_case` moves the cursor's case exactly one position forward within the
      current module (from "not found" to the first case), and stays on the last
      case; a cursor naming no module stays where it is. */
  lemma NextCasePosition(plan: Plan, cur: Cursor)
    requires UniqueModuleIds(plan)
    requires Selected(cur.moduleKey) && Selected(cur.caseKey)
    ensures var mi := ModuleIndex(plan, cur.moduleKey);
      mi == -1 ==> NextCase(plan, cur) == cur
    ensures var mi := ModuleIndex(plan, cur.moduleKey);
      mi >= 0 && UniqueCaseIds(plan[mi].cases) ==>
        var cases := plan[mi].cases;
        var p := IndexOf(cases, cur.caseKey);
        IndexOf(cases, NextCase(plan, cur).caseKey) == if p < |cases| - 1 then p + 1 else p
  {
    CaseScanUnique(plan, cur, true);
  }

  /** `prev_case` moves the cursor's case exactly one position back within the
      current module, and stays on the first case or on a key naming no case. */
  lemma PrevCasePosition(plan: Plan, cur: Cursor)
    requires UniqueModuleIds(plan)
    requires Selected(cur.moduleKey) && Selected(cur.caseKey)
    ensures var mi := ModuleIndex(plan, cur.moduleKey);
      mi == -1 ==> PrevCase(plan, cur) == cur
    ensures var mi := ModuleIndex(plan, cur.moduleKey);
      mi >= 0 && UniqueCaseIds(plan[mi].cases) ==>
        var cases := plan[mi].cases;
        var p := IndexOf(cases, cur.caseKey);
        IndexOf(cases, PrevCase(plan, cur).caseKey) == if p > 0 then p - 1 else p
  {
    CaseScanUnique(plan, cur, false);
  }

  /** Stepping forward and then back returns to the case the cursor started on,
      unless it started on the last case. */
  lemma PrevAfterNextCase(plan: Plan, cur: Cursor)
    requires UniqueModuleIds(plan)
    requires ModuleIndex(plan, cur.moduleKey) >= 0
    requires UniqueCaseIds(plan[ModuleIndex(plan, cur.moduleKey)].cases)
    requires 0 <= IndexOf(plan[ModuleIndex(plan, cur.moduleKey)].cases, cur.caseKey)
               < |plan[ModuleIndex(plan, cur.moduleKey)].cases| - 1
    ensures PrevCase(plan, NextCase(plan, cur)) == cur
  {
    var mi := ModuleIndex(plan, cur.moduleKey);
    var cases := plan[mi].cases;
    var p := IndexOf(cases, cur.caseKey);
    NamesSelected(plan[mi].id, cur.moduleKey);
    NamesSelected(cases[p].id, cur.caseKey);
    NextCasePosition(plan, cur);
    var nxt := NextCase(plan, cur);
    assert IndexOf(cases, nxt.caseKey) == p + 1;
    NamesSelected(cases[p + 1].id, nxt.caseKey);
    PrevCasePosition(plan, nxt);
    var back := PrevCase(plan, nxt);
    assert IndexOf(cases, back.caseKey) == p;
    assert back.caseKey == Some(IdText(cases[p].id)) == cur.caseKey;
  }

  /** Stepping back and then forward returns to the starting case, unless it
      started on the first case. */
  lemma NextAfterPrevCase(plan: Plan, cur: Cursor)
    requires UniqueModuleIds(plan)
    requires ModuleIndex(plan, cur.moduleKey) >= 0
    requires UniqueCaseIds(plan[ModuleIndex(plan, cur.moduleKey)].cases)
    requires 0 < IndexOf(plan[ModuleIndex(plan, cur.moduleKey)].cases, cur.caseKey)
    ensures NextCase(plan, PrevCase(plan, cur)) == cur
  {
    var mi := ModuleIndex(plan, cur.moduleKey);
    var cases := plan[mi].cases;
    var p := IndexOf(cases, cur.caseKey);
    NamesSelected(plan[mi].id, cur.moduleKey);
    NamesSelected(cases[p].id, cur.caseKey);
    PrevCasePosition(plan, cur);
    var prv := PrevCase(plan, cur);
    assert IndexOf(cases, prv.caseKey) == p - 1;
    NamesSelected(cases[p - 1].id, prv.caseKey);
    NextCasePosition(plan, prv);
    var back := NextCase(plan, prv);
    assert IndexOf(cases, back.caseKey) == p;
    assert back.caseKey == Some(IdText(cases[p].id)) == cur.caseKey;
  }

  /** The key of a module's first case, or None when it has no cases. */
  function FirstCaseKey(m: Module): Option<string> {
    if |m.cases| > 0 then Some(IdText(m.cases[0].id)) else None
  }

  /** The cursor on module `j` and its first case. */
  function EnterModule(plan: Plan, j: int): (r: Cursor)
    requires 0 <= j < |plan|
    ensures Names(plan[j].id, r.moduleKey)
    ensures |plan[j].cases| == 0 <==> r.caseKey == None
    ensures |plan[j].cases| > 0 ==> Names(plan[j].cases[0].id, r.caseKey)
  {
    Cursor(Some(IdText(plan[j].id)), FirstCaseKey(plan[j]))
  }

  /** With unique module ids, entering module `j` puts the cursor on module `j`
      and, when it has cases, on its first case. */
  lemma EnterModuleTarget(plan: Plan, j: int)
    requires UniqueModuleIds(plan)
    requires 0 <= j < |plan|
    ensures ModuleIndex(plan, EnterModule(plan, j).moduleKey) == j
    ensures |plan[j].cases| > 0 ==> FindCase(plan, EnterModule(plan, j)) == Some((j, 0))
  {
    var r := EnterModule(plan, j);
    ModuleIndexUnique(plan, j);
    if |plan[j].cases| > 0 {
      assert IsMatch(plan, r, j, 0);
      var (a, b) := FindCase(plan, r).value;
      IdTextInjective(plan[a].id, plan[j].id);
      assert a == j;
    }
  }

  /** `prev_function`: the module before the current one, on its first case (no
      case when it has none). At the first module, or naming no module, nothing
      changes. */
  function PrevFunction(plan: Plan, cur: Cursor): (r: Cursor)
    ensures var i := ModuleIndex(plan, cur.moduleKey);
      i <= 0 ==> r == cur
    ensures var i := ModuleIndex(plan, cur.moduleKey);
      i > 0 ==> Names(plan[i - 1].id, r.moduleKey) && r.caseKey == FirstCaseKey(plan[i - 1])
  {
    var i := ModuleIndex(plan, cur.moduleKey);
    if i > 0 then EnterModule(plan, i - 1) else cur
  }

  /** `next_function`: the module after the current one, on its first case (no
      case when it has none); naming no module, the first module. At the last
      module nothing changes. */
  function NextFunction(plan: Plan, cur: Cursor): (r: Cursor)
    ensures var i := ModuleIndex(plan, cur.moduleKey);
      i == |plan| - 1 ==> r == cur
    ensures var i := ModuleIndex(plan, cur.moduleKey);
      i < |plan| - 1 ==> Names(plan[i + 1].id, r.moduleKey) && r.caseKey == FirstCaseKey(plan[i + 1])
  {
    var i := ModuleIndex(plan, cur.moduleKey);
    if i < |plan| - 1 then EnterModule(plan, i + 1) else cur
  }

  /** With unique module ids, `prev_function` moves the cursor's module exactly one
      position back, onto that module's first case. */
  lemma {:induction false} PrevFunctionPosition(plan: Plan, cur: Cursor)
    requires UniqueModuleIds(plan)
    requires ModuleIndex(plan, cur.moduleKey) > 0
    ensures var i := ModuleIndex(plan, cur.moduleKey);
      && ModuleIndex(plan, PrevFunction(plan, cur).moduleKey) == i - 1
      && (|plan[i - 1].cases| > 0 ==> FindCase(plan, PrevFunction(plan, cur)) == Some((i - 1, 0)))
  {
    EnterModuleTarget(plan, ModuleIndex(plan, cur.moduleKey) - 1);
  }

  /** With unique module ids, `next_function` moves the cursor's module exactly one
      position forward (from no module, to the first), onto that module's first
      case. */
  lemma {:induction false} NextFunctionPosition(plan: Plan, cur: Cursor)
    requires UniqueModuleIds(plan)
    requires ModuleIndex(plan, cur.moduleKey) < |plan| - 1
    ensures var i := ModuleIndex(plan, cur.moduleKey);
      && ModuleIndex(plan, NextFunction(plan, cur).moduleKey) == i + 1
      && (|plan[i + 1].cases| > 0 ==> FindCase(plan, NextFunction(plan, cur)) == Some((i + 1, 0)))
  {
    EnterModuleTarget(plan, ModuleIndex(plan, cur.moduleKey) + 1);
  }

  /** Moving to the next module and back returns to the starting module, on its
      first case. */
  lemma PrevAfterNextFunction(plan: Plan, cur: Cursor)
    requires UniqueModuleIds(plan)
    requires 0 <= ModuleIndex(plan, cur.moduleKey) < |plan| - 1
    ensures PrevFunction(plan, NextFunction(plan, cur)) == EnterModule(plan, ModuleIndex(plan, cur.moduleKey))
    ensures PrevFunction(plan, NextFunction(plan, cur)).moduleKey == cur.moduleKey
  {
    NextFunctionPosition(plan, cur);
  }

  /** Moving to the previous module and forward returns to the starting module. */
  lemma NextAfterPrevFunction(plan: Plan, cur: Cursor)
    requires UniqueModuleIds(plan)
    requires 0 < ModuleIndex(plan, cur.moduleKey)
    ensures NextFunction(plan, PrevFunction(plan, cur)) == EnterModule(plan, ModuleIndex(plan, cur.moduleKey))
    ensures NextFunction(plan, PrevFunction(plan, cur)).moduleKey == cur.moduleKey
  {
    PrevFunctionPosition(plan, cur);
  }
}

=== FILE: proxy.dfy ===
/** The traffic-recording hook the intercepting proxy calls for every response:
    it filters by Content-Type, builds a record of the exchange and appends it
    to the `httpResult` list of the case the cursor file names. The proxy's
    own files are values: the parsed `import.json` and `current_test_case.json`
    come in, and the hook yields the document it writes, if any. */
module Proxy {
  import opened JsonValues
  import opened Ids
  import opened TestPlan
  import opened Status

  datatype Request = Request(
    url: string,
    headers: seq<(string, string)>,
    verb: string,
    query: seq<(string, string)>,
    text: string)

  /** `contentType` is the response's Content-Type value, "" when absent. */
  datatype Response = Response(contentType: string, status: int, text: string)

  datatype Flow = Flow(request: Request, response: Response)

  /** The request payload kept in a record: the query view when the URL has a
      query, else the body text. */
  datatype RequestData = QueryView(pairs: seq<(string, string)>) | BodyText(text: string)

  datatype HttpRecord = HttpRecord(
    url: string,
    header: seq<string>,
    verb: string,
    data: RequestData,
    result: string,
    status: int,
    isSuccess: bool,
    time: string)

  /** The longest response text a record keeps. */
  const MaxResult: nat := 1000

  predicate OccursAt(s: string, sub: string, i: int) {
    0 <= i <= |s| - |sub| && s[i..i + |sub|] == sub
  }

  /** `sub in s` on Python strings. */
  predicate Contains(s: string, sub: string) {
    exists i :: 0 <= i <= |s| - |sub| && OccursAt(s, sub, i)
  }

  /** The Content-Types whose responses are recorded, matched as substrings. */
  predicate Recordable(contentType: string) {
    || Contains(contentType, "application/json")
    || Contains(contentType, "text/html")
    || Contains(contentType, "text/plain")
    || Contains(contentType, "application/xml")
  }

  function HeaderLines(headers: seq<(string, string)>): (r: seq<string>)
    ensures |r| == |headers|
    ensures forall i :: 0 <= i < |headers| ==> r[i] == headers[i].0 + ":" + headers[i].1
  {
    seq(|headers|, i requires 0 <= i < |headers| => headers[i].0 + ":" + headers[i].1)
  }

  function Min(a: nat, b: nat): nat {
    if a <= b then a else b
  }

  /** The record `response` builds; `now` is the formatted current time. */
  function BuildRecord(flow: Flow, now: string): (r: HttpRecord)
    ensures r.isSuccess <==> flow.response.status == 200
    ensures r.status == flow.response.status
    ensures |r.result| == Min(MaxResult, |flow.response.text|)
    ensures r.result <= flow.response.text
    ensures r.data == if |flow.request.query| > 0 then QueryView(flow.request.query) else BodyText(flow.request.text)
    ensures |r.header| == |flow.request.headers|
    ensures forall i :: 0 <= i < |r.header| ==>
      r.header[i] == flow.request.headers[i].0 + ":" + flow.request.headers[i].1
    ensures r.url == flow.request.url && r.verb == flow.request.verb && r.time == now
  {
    var text := flow.response.text;
    HttpRecord(
      flow.request.url,
      HeaderLines(flow.request.headers),
      flow.request.verb,
      if |flow.request.query| > 0 then QueryView(flow.request.query) else BodyText(flow.request.text),
      text[..Min(MaxResult, |text|)],
      flow.response.status,
      flow.response.status == 200,
      now)
  }

  /** `response` up to the update call: a record only for a recorded Content-Type. */
  function RecordFor(flow: Flow, now: string): (r: Option<HttpRecord>)
    ensures r.Some? <==> Recordable(flow.response.contentType)
    ensures r.Some? ==> r.value == BuildRecord(flow, now)
  {
    if Recordable(flow.response.contentType) then Some(BuildRecord(flow, now)) else None
  }

  function PairsJson(pairs: seq<(string, string)>): (r: seq<(string, Json)>)
    ensures |r| == |pairs|
    ensures forall i :: 0 <= i < |pairs| ==> r[i] == (pairs[i].0, Str(pairs[i].1))
  {
    seq(|pairs|, i requires 0 <= i < |pairs| => (pairs[i].0, Str(pairs[i].1)))
  }

  function Strings(ss: seq<string>): (r: seq<Json>)
    ensures |r| == |ss| && forall i :: 0 <= i < |ss| ==> r[i] == Str(ss[i])
  {
    seq(|ss|, i requires 0 <= i < |ss| => Str(ss[i]))
  }

  /** The record as a JSON object with the given `data` member. */
  function RecordObject(rec: HttpRecord, data: Json): Json {
    Obj([
      ("url", Str(rec.url)),
      ("header", Arr(Strings(rec.header))),
      ("method", Str(rec.verb)),
      ("data", data),
      ("result", Str(rec.result)),
      ("status", Num(rec.status)),
      ("isSuccess", Bool(rec.isSuccess)),
      ("time", Str(rec.time))])
  }

  /** `json.dumps` of the record AS WRITTEN: a query view is not a JSON type, so
      serialising a record that holds one raises. */
  function RecordJsonAsWritten(rec: HttpRecord): (r: Option<Json>)
    ensures r.None? <==> rec.data.QueryView?
  {
    match rec.data
    case QueryView(_) => None
    case BodyText(t) => Some(RecordObject(rec, Str(t)))
  }

  /** The record serialised with the query kept as an object of its parameters. */
  function RecordJson(rec: HttpRecord): (r: Json)
    ensures r.Obj? && |r.members| == 8
    ensures Member(r.members, "isSuccess") == Some(Bool(rec.isSuccess))
    ensures Member(r.members, "result") == Some(Str(rec.result))
    ensures rec.data.BodyText? ==> Some(r) == RecordJsonAsWritten(rec)
    ensures rec.data.QueryView? ==> Member(r.members, "data") == Some(Obj(PairsJson(rec.data.pairs)))
  {
    var data := match rec.data
      case QueryView(pairs) => Obj(PairsJson(pairs))
      case BodyText(t) => Str(t);
    RecordObjectMembers(rec, data);
    RecordObject(rec, data)
  }

  /** Looking up the members of a serialised record gives back its fields. */
  lemma RecordObjectMembers(rec: HttpRecord, data: Json)
    ensures RecordObject(rec, data).Obj? && |RecordObject(rec, data).members| == 8
    ensures Member(RecordObject(rec, data).members, "data") == Some(data)
    ensures Member(RecordObject(rec, data).members, "result") == Some(Str(rec.result))
    ensures Member(RecordObject(rec, data).members, "isSuccess") == Some(Bool(rec.isSuccess))
  {
    var ms := RecordObject(rec, data).members;
    MemberLast(ms, 3, "data");
    MemberLast(ms, 4, "result");
    MemberLast(ms, 6, "isSuccess");
  }

  // ---------------------------------------------------------------------------
  // The cursor file

  /** `get_current_test_case`: the two ids from the parsed cursor file; Python's
      `(None, None)` (here two nulls) when the file is unreadable, is not an
      object, or lacks either key. */
  function GetCurrentTestCase(cursorFile: Option<Json>): (r: (Json, Json))
    ensures cursorFile.None? || !cursorFile.value.Obj? ==> r == (Null, Null)
    ensures cursorFile.Some? && cursorFile.value.Obj? ==>
      var ms := cursorFile.value.members;
      if Member(ms, "module_id").Some? && Member(ms, "case_id").Some?
      then r == (Member(ms, "module_id").value, Member(ms, "case_id").value)
      else r == (Null, Null)
  {
    match cursorFile
    case Some(Obj(ms)) =>
      if Member(ms, "module_id").Some? && Member(ms, "case_id").Some?
      then (Member(ms, "module_id").value, Member(ms, "case_id").value)
      else (Null, Null)
    case _ => (Null, Null)
  }

  /** A cursor id as Python's JSON writes it: None becomes null. */
  function KeyJson(key: Option<string>): Json {
    match key
    case Some(s) => Str(s)
    case None => Null
  }

  /** A cursor id read back; only a string can equal `str(id)`. */
  function AsKey(v: Json): Option<string> {
    if v.Str? then Some(v.s) else None
  }

  /** `save_current_test_case` of the desktop tool: the cursor file it writes. */
  function CursorFile(cur: Cursor): (r: Json)
    ensures GetCurrentTestCase(Some(r)) == (KeyJson(cur.moduleKey), KeyJson(cur.caseKey))
  {
    var r := Obj([("module_id", KeyJson(cur.moduleKey)), ("case_id", KeyJson(cur.caseKey))]);
    assert Member(r.members, "module_id") == Some(KeyJson(cur.moduleKey));
    r
  }

  /** Reading the cursor file the desktop tool last wrote gives back the cursor
      it wrote. */
  lemma CursorFileRoundTrip(cur: Cursor)
    ensures var (m, c) := GetCurrentTestCase(Some(CursorFile(cur)));
      Cursor(AsKey(m), AsKey(c)) == cur
      && (Truthy(m) && Truthy(c) <==> Selected(cur.moduleKey) && Selected(cur.caseKey))
  {
  }

  // ---------------------------------------------------------------------------
  // update_error_json_with_error_data

  /** The old `httpResult` as a list, before a record is appended: a string is
      decoded (text that fails to decode counts as an empty list), a list is
      kept, any other truthy value is wrapped, a falsy one becomes empty. */
  function HttpHistory(f: Option<Field>): (r: seq<Json>)
    ensures f.None? ==> r == []
    ensures f.Some? && IsText(f.value) && Decode(f.value).None? ==> r == []
    ensures f.Some? && IsText(f.value) && Decode(f.value).Some? ==> r == Listed(Decode(f.value).value)
    ensures f.Some? && !IsText(f.value) ==> r == Listed(f.value.v)
  {
    var existing :=
      match f
      case None => Arr([])
      case Some(Encoded(v)) => v
      case Some(Raw(Str(_))) => Arr([])
      case Some(Raw(v)) => v;
    Listed(existing)
  }

  /** The existing history as a list: a list is kept, any other truthy value
      becomes a one-element list, and a falsy value an empty one. */
  function Listed(v: Json): (r: seq<Json>)
    ensures v.Arr? ==> r == v.items
    ensures !v.Arr? && Truthy(v) ==> r == [v]
    ensures !v.Arr? && !Truthy(v) ==> r == []
  {
    if v.Arr? then v.items else if Truthy(v) then [v] else []
  }

  /** The case with `error` appended to its decoded `httpResult` list. */
  function WithError(c: Case, error: Json): (r: Case)
    ensures r.httpResult.Some? && IsText(r.httpResult.value)
    ensures Decode(r.httpResult.value) == Some(Arr(HttpHistory(c.httpResult) + [error]))
    ensures r.(httpResult := c.httpResult) == c
  {
    c.(httpResult := Some(Encode(Arr(HttpHistory(c.httpResult) + [error]))))
  }

  datatype Outcome = Written(plan: Plan) | NotWritten

  /** `update_error_json_with_error_data`: `importFile` is the parsed plan, None
      when the file does not exist or cannot be read. The first case whose module
      and case ids match the cursor file gets `error` appended; every other case
      is left as it was. Nothing is written when the file is missing, the cursor
      ids are not both set, or no case matches. */
  function UpdateErrorJson(importFile: Option<Plan>, cursorFile: Option<Json>, error: Json): (r: Outcome)
    ensures importFile.None? ==> r == NotWritten
    ensures importFile.Some? ==>
      var (m, c) := GetCurrentTestCase(cursorFile);
      var cur := Cursor(AsKey(m), AsKey(c));
      (r.Written? <==> Truthy(m) && Truthy(c) && FindCase(importFile.value, cur).Some?)
    ensures r.Written? ==>
      var (m, c) := GetCurrentTestCase(cursorFile);
      var plan := importFile.value;
      var (mi, ci) := FindCase(plan, Cursor(AsKey(m), AsKey(c))).value;
      && r.plan == SetCase(plan, mi, ci, WithError(plan[mi].cases[ci], error))
      && |Decode(r.plan[mi].cases[ci].httpResult.value).value.items| == |HttpHistory(plan[mi].cases[ci].httpResult)| + 1
  {
    match importFile
    case None => NotWritten
    case Some(plan) =>
      var (m, c) := GetCurrentTestCase(cursorFile);
      if Truthy(m) && Truthy(c) then
        match FindCase(plan, Cursor(AsKey(m), AsKey(c)))
        case Some((mi, ci)) => Written(SetCase(plan, mi, ci, WithError(plan[mi].cases[ci], error)))
        case None => NotWritten
      else NotWritten
  }

  /** With the cursor file the desktop tool last wrote from `cur`, the hook writes
      to exactly the case `cur` names. */
  lemma UpdateTargetsCurrentCase(plan: Plan, cur: Cursor, error: Json)
    ensures var r := UpdateErrorJson(Some(plan), Some(CursorFile(cur)), error);
      (r.Written? <==> GetCurrentCase(plan, cur).Some?)
      && (r.Written? ==>
            var (mi, ci) := FindCase(plan, cur).value;
            r.plan[mi].cases[ci] == WithError(GetCurrentCase(plan, cur).value, error))
  {
    CursorFileRoundTrip(cur);
  }

  // ---------------------------------------------------------------------------
  // response: the whole hook

  /** The hook as written: the record is serialised when the update writes it,
      and a failure there is caught, so nothing is written. */
  function ResponseHookAsWritten(flow: Flow, now: string, importFile: Option<Plan>, cursorFile: Option<Json>): (r: Outcome)
    ensures !Recordable(flow.response.contentType) ==> r == NotWritten
    ensures |flow.request.query| > 0 ==> r == NotWritten
  {
    match RecordFor(flow, now)
    case None => NotWritten
    case Some(rec) =>
      match RecordJsonAsWritten(rec)
      case None => NotWritten
      case Some(j) => UpdateErrorJson(importFile, cursorFile, j)
  }

  /** A request with a query string, answered with JSON, while the cursor names an
      existing case: the hook as written records nothing. */
  lemma QueryRequestDropped()
    ensures var plan := [Module(1, "m", [Case(2, "c", None, None, None, None, [])], [])];
      var cur := Cursor(Some("1"), Some("2"));
      var flow := Flow(Request("http://h/a?x=1", [], "GET", [("x", "1")], ""), Response("application/json", 200, "{}"));
      && GetCurrentCase(plan, cur).Some?
      && ResponseHookAsWritten(flow, "t", Some(plan), Some(CursorFile(cur))) == NotWritten
      && ResponseHook(flow, "t", Some(plan), Some(CursorFile(cur))).Written?
  {
    var plan := [Module(1, "m", [Case(2, "c", None, None, None, None, [])], [])];
    var cur := Cursor(Some("1"), Some("2"));
    assert IdText(1) == "1" && IdText(2) == "2";
    assert IsMatch(plan, cur, 0, 0);
    var flow := Flow(Request("http://h/a?x=1", [], "GET", [("x", "1")], ""), Response("application/json", 200, "{}"));
    assert OccursAt(flow.response.contentType, "application/json", 0);
    assert Recordable(flow.response.contentType);
    assert GetCurrentCase(plan, cur).Some?;
    UpdateTargetsCurrentCase(plan, cur, RecordJson(BuildRecord(flow, "t")));
    assert ResponseHook(flow, "t", Some(plan), Some(CursorFile(cur))).Written?;
  }

  /** `response` with the query serialised: every recorded exchange reaches the
      update, so a response is recorded exactly when its Content-Type is one of
      the four and the cursor names a case of the plan. */
  function ResponseHook(flow: Flow, now: string, importFile: Option<Plan>, cursorFile: Option<Json>): (r: Outcome)
    ensures !Recordable(flow.response.contentType) ==> r == NotWritten
    ensures Recordable(flow.response.contentType) ==>
      r == UpdateErrorJson(importFile, cursorFile, RecordJson(BuildRecord(flow, now)))
    ensures |flow.request.query| == 0 ==>
      r == ResponseHookAsWritten(flow, now, importFile, cursorFile)
  {
    match RecordFor(flow, now)
    case None => NotWritten
    case Some(rec) => UpdateErrorJson(importFile, cursorFile, RecordJson(rec))
  }

  /** With the cursor file the desktop tool last wrote from `cur`, a recorded
      response lands on the case `cur` names, whatever the request carries. */
  lemma ResponseRecordsCurrentCase(flow: Flow, now: string, plan: Plan, cur: Cursor)
    requires Recordable(flow.response.contentType)
    ensures var r := ResponseHook(flow, now, Some(plan), Some(CursorFile(cur)));
      r.Written? <==> GetCurrentCase(plan, cur).Some?
  {
    UpdateTargetsCurrentCase(plan, cur, RecordJson(BuildRecord(flow, now)));
  }
}

=== FILE: status.dfy ===
/** Lookups of the active case, the progress count shown in the status window,
    and the status changes `toggle_tested` and `save_data`. */
module Status {
  import opened JsonValues
  import opened TestPlan

  /** `get_current_case`: the case both cursor ids name, first in plan order. */
  function GetCurrentCase(plan: Plan, cur: Cursor): (r: Option<Case>)
    ensures r.Some? <==> exists m, c :: IsMatch(plan, cur, m, c)
    ensures r.Some? ==>
      && FindCase(plan, cur).Some?
      && r.value == plan[FindCase(plan, cur).value.0].cases[FindCase(plan, cur).value.1]
    ensures !(Selected(cur.moduleKey) && Selected(cur.caseKey)) ==> r.None?
  {
    if Selected(cur.moduleKey) && Selected(cur.caseKey) then
      match FindCase(plan, cur)
      case Some((mi, ci)) => Some(plan[mi].cases[ci])
      case None => None
    else
      assert forall m, c :: IsMatch(plan, cur, m, c) ==> Selected(cur.moduleKey) && Selected(cur.caseKey);
      None
  }

  /** What the status window shows: the module's name, the case's 1-based
      position in it and the module's case count; None stands for `("-", "-", "-")`. */
  datatype Position = Position(moduleName: string, index: nat, total: nat)

  /** `get_current_module_case`. */
  function GetCurrentModuleCase(plan: Plan, cur: Cursor): (r: Option<Position>)
    ensures r.Some? <==> GetCurrentCase(plan, cur).Some?
    ensures r.Some? ==> 1 <= r.value.index <= r.value.total
    ensures r.Some? ==> exists mi ::
      && 0 <= mi < |plan|
      && r.value.moduleName == plan[mi].name
      && r.value.total == |plan[mi].cases|
      && IsMatch(plan, cur, mi, r.value.index - 1)
      && NoMatchBefore(plan, cur, 0, mi, r.value.index - 1)
      && GetCurrentCase(plan, cur) == Some(plan[mi].cases[r.value.index - 1])
  {
    if Selected(cur.moduleKey) && Selected(cur.caseKey) then
      match FindCase(plan, cur)
      case Some((mi, ci)) => Some(Position(plan[mi].name, ci + 1, |plan[mi].cases|))
      case None => None
    else None
  }

  // ---------------------------------------------------------------------------
  // get_remaining_modules_cases

  /** The case still has to be tested: its `isTested` is missing or falsy. */
  predicate Remaining(c: Case) {
    !Tested(c)
  }

  function CountRemaining(cases: seq<Case>): (n: nat)
    ensures n <= |cases|
    ensures n == 0 <==> forall k :: 0 <= k < |cases| ==> !Remaining(cases[k])
    decreases |cases|
  {
    if |cases| == 0 then 0
    else
      var last := cases[|cases| - 1];
      var n := CountRemaining(cases[..|cases| - 1]) + (if Remaining(last) then 1 else 0);
      assert forall k :: 0 <= k < |cases| - 1 ==> cases[..|cases| - 1][k] == cases[k];
      n
  }

  /** Reference count: the cases still to be tested, over the whole plan. */
  function RemainingCases(plan: Plan): nat
    decreases |plan|
  {
    if |plan| == 0 then 0
    else RemainingCases(plan[..|plan| - 1]) + CountRemaining(plan[|plan| - 1].cases)
  }

  /** Reference count: the modules with at least one case still to be tested. */
  function RemainingModules(plan: Plan): nat
    decreases |plan|
  {
    if |plan| == 0 then 0
    else RemainingModules(plan[..|plan| - 1]) + (if CountRemaining(plan[|plan| - 1].cases) > 0 then 1 else 0)
  }

  /** Every module counted has at least one case counted, and no module counts twice. */
  lemma {:induction false} RemainingBounds(plan: Plan)
    ensures RemainingModules(plan) <= RemainingCases(plan)
    ensures RemainingModules(plan) <= |plan|
    ensures RemainingModules(plan) == 0 <==> RemainingCases(plan) == 0
    decreases |plan|
  {
    if |plan| > 0 {
      RemainingBounds(plan[..|plan| - 1]);
    }
  }

  /** `get_remaining_modules_cases`: the two counts the status window shows. */
  method GetRemainingModulesCases(plan: Plan) returns (modules: nat, cases: nat)
    ensures cases == RemainingCases(plan)
    ensures modules == RemainingModules(plan)
    ensures modules <= cases && modules <= |plan|
    ensures modules == 0 <==> cases == 0
  {
    modules, cases := 0, 0;
    var i := 0;
    while i < |plan|
      invariant 0 <= i <= |plan|
      invariant cases == RemainingCases(plan[..i])
      invariant modules == RemainingModules(plan[..i])
    {
      var moduleHasRemaining := false;
      var inModule := 0;
      var k := 0;
      var cs := plan[i].cases;
      while k < |cs|
        invariant 0 <= k <= |cs|
        invariant inModule == CountRemaining(cs[..k])
        invariant moduleHasRemaining <==> inModule > 0
      {
        if Remaining(cs[k]) {
          inModule := inModule + 1;
          moduleHasRemaining := true;
        }
        assert cs[..k + 1][..k] == cs[..k];
        k := k + 1;
      }
      assert cs[..k] == cs;
      cases := cases + inModule;
      if moduleHasRemaining {
        modules := modules + 1;
      }
      assert plan[..i + 1][..i] == plan[..i];
      i := i + 1;
    }
    assert plan[..i] == plan;
    RemainingBounds(plan);
  }

  // ---------------------------------------------------------------------------
  // save_data and toggle_tested

  /** `completion` agrees with the tested flag: 1 when tested, 0 otherwise. */
  predicate CompletionSynced(c: Case) {
    c.completion == Some(Num(if Tested(c) then 1 else 0))
  }

  predicate AllSynced(plan: Plan) {
    forall i, k :: 0 <= i < |plan| && 0 <= k < |plan[i].cases| ==> CompletionSynced(plan[i].cases[k])
  }

  function SyncCompletion(c: Case): (r: Case)
    ensures CompletionSynced(r)
    ensures r.(completion := c.completion) == c
  {
    c.(completion := Some(Num(if Tested(c) then 1 else 0)))
  }

  /** The data part of `save_data`: every case's `completion` recomputed. */
  function SaveData(plan: Plan): (r: Plan)
    ensures AllSynced(r)
    ensures SameShape(plan, r)
    ensures forall i, k :: 0 <= i < |plan| && 0 <= k < |plan[i].cases| ==>
      r[i].cases[k].(completion := plan[i].cases[k].completion) == plan[i].cases[k]
    ensures forall i :: 0 <= i < |plan| ==> r[i].name == plan[i].name && r[i].extra == plan[i].extra
  {
    MapCases(plan, SyncCompletion)
  }

  /** Saving an already saved plan changes nothing. */
  lemma SaveDataIdempotent(plan: Plan)
    ensures SaveData(SaveData(plan)) == SaveData(plan)
  {
    var once := SaveData(plan);
    var twice := SaveData(once);
    assert forall i :: 0 <= i < |once| ==> twice[i].cases == once[i].cases;
    assert forall i :: 0 <= i < |once| ==> twice[i] == once[i];
  }

  /** A plan that is already in sync is left as it is. */
  lemma SaveDataKeepsSynced(plan: Plan)
    requires AllSynced(plan)
    ensures SaveData(plan) == plan
  {
    var r := SaveData(plan);
    assert forall i :: 0 <= i < |plan| ==> r[i].cases == plan[i].cases;
    assert forall i :: 0 <= i < |plan| ==> r[i] == plan[i];
  }

  /** The current case with its tested flag flipped and `completion` to match. */
  function Flip(c: Case): (r: Case)
    ensures Tested(r) == !Tested(c)
    ensures r.isTested.Some? && r.isTested.value.Bool?
    ensures CompletionSynced(r)
    ensures r.(isTested := c.isTested, completion := c.completion) == c
  {
    var was := Tested(c);
    c.(isTested := Some(Bool(!was)), completion := Some(Num(if !was then 1 else 0)))
  }

  /** `toggle_tested`; `confirmed` is the outcome of the confirmation prompt (true
      when the prompt is switched off). With no current case, or when the tester
      declines, nothing changes; otherwise the current case is flipped and the
      plan saved. */
  function ToggleTested(plan: Plan, cur: Cursor, confirmed: bool): (r: Plan)
    ensures GetCurrentCase(plan, cur).None? || !confirmed ==> r == plan
    ensures SameShape(plan, r)
    ensures GetCurrentCase(plan, cur).Some? && confirmed ==>
      var (mi, ci) := FindCase(plan, cur).value;
      && r[mi].cases[ci] == Flip(plan[mi].cases[ci])
      && AllSynced(r)
      && (forall i, k :: 0 <= i < |plan| && 0 <= k < |plan[i].cases| && (i, k) != (mi, ci) ==>
            r[i].cases[k] == SyncCompletion(plan[i].cases[k]))
      && (forall i :: 0 <= i < |plan| ==> r[i].name == plan[i].name && r[i].extra == plan[i].extra)
  {
    if GetCurrentCase(plan, cur).Some? && confirmed then
      var (mi, ci) := FindCase(plan, cur).value;
      var c := Flip(plan[mi].cases[ci]);
      SaveAfterSet(plan, mi, ci, c);
      SaveData(SetCase(plan, mi, ci, c))
    else plan
  }

  /** Saving after one case was replaced by a synced case: that case stays as
      given, every other case is synced, and the shape is kept. */
  lemma SaveAfterSet(plan: Plan, mi: int, ci: int, c: Case)
    requires 0 <= mi < |plan| && 0 <= ci < |plan[mi].cases|
    requires c.id == plan[mi].cases[ci].id && CompletionSynced(c)
    ensures var r := SaveData(SetCase(plan, mi, ci, c));
      && SameShape(plan, r)
      && r[mi].cases[ci] == c
      && AllSynced(r)
      && (forall i, k :: 0 <= i < |plan| && 0 <= k < |plan[i].cases| && (i, k) != (mi, ci) ==>
            r[i].cases[k] == SyncCompletion(plan[i].cases[k]))
      && (forall i :: 0 <= i < |plan| ==> r[i].name == plan[i].name && r[i].extra == plan[i].extra)
  {
    var s := SetCase(plan, mi, ci, c);
    var r := SaveData(s);
    assert r[mi].cases[ci] == SyncCompletion(c) == c;
    forall i, k | 0 <= i < |plan| && 0 <= k < |plan[i].cases| && (i, k) != (mi, ci)
      ensures r[i].cases[k] == SyncCompletion(plan[i].cases[k])
    {
      assert s[i].cases[k] == plan[i].cases[k];
    }
  }

  /** Toggling never moves the cursor's target. */
  lemma ToggleKeepsTarget(plan: Plan, cur: Cursor, confirmed: bool)
    ensures FindCase(ToggleTested(plan, cur, confirmed), cur) == FindCase(plan, cur)
    ensures GetCurrentCase(ToggleTested(plan, cur, confirmed), cur).Some? == GetCurrentCase(plan, cur).Some?
  {
    FindCaseShape(plan, ToggleTested(plan, cur, confirmed), cur);
  }

  /** After a confirmed toggle the current case is the old one flipped. */
  lemma ToggleCurrent(plan: Plan, cur: Cursor)
    requires GetCurrentCase(plan, cur).Some?
    ensures GetCurrentCase(ToggleTested(plan, cur, true), cur) == Some(Flip(GetCurrentCase(plan, cur).value))
  {
    var r := ToggleTested(plan, cur, true);
    ToggleKeepsTarget(plan, cur, true);
    var (mi, ci) := FindCase(plan, cur).value;
    assert r[mi].cases[ci] == Flip(plan[mi].cases[ci]);
  }

  /** Toggling twice restores the tested state of the current case; a flag that
      was a boolean comes back exactly. */
  lemma ToggleTwice(plan: Plan, cur: Cursor)
    requires GetCurrentCase(plan, cur).Some?
    ensures var twice := ToggleTested(ToggleTested(plan, cur, true), cur, true);
      && GetCurrentCase(twice, cur).Some?
      && Tested(GetCurrentCase(twice, cur).value) == Tested(GetCurrentCase(plan, cur).value)
    ensures var twice := ToggleTested(ToggleTested(plan, cur, true), cur, true);
      GetCurrentCase(plan, cur).value.isTested.Some? && GetCurrentCase(plan, cur).value.isTested.value.Bool? ==>
        GetCurrentCase(twice, cur).value.isTested == GetCurrentCase(plan, cur).value.isTested
  {
    var c := GetCurrentCase(plan, cur).value;
    var once := ToggleTested(plan, cur, true);
    ToggleCurrent(plan, cur);
    assert GetCurrentCase(once, cur) == Some(Flip(c));
    var twice := ToggleTested(once, cur, true);
    ToggleCurrent(once, cur);
    assert GetCurrentCase(twice, cur) == Some(Flip(Flip(c)));
    FlipTwice(c);
  }

  /** Flipping twice restores tested-ness, and a boolean flag exactly. */
  lemma FlipTwice(c: Case)
    ensures Tested(Flip(Flip(c))) == Tested(c)
    ensures c.isTested.Some? && c.isTested.value.Bool? ==> Flip(Flip(c)).isTested == c.isTested
  {
  }
}

=== FILE: test_plan.dfy ===
/** The test plan: an ordered list of modules, each holding an ordered list of
    cases, plus the cursor `(current_module_id, current_case_id)` that names the
    active case by the text of its ids. Also the normalisation `load_data`
    applies when the plan is read from disk. */
module TestPlan {
  import opened JsonValues
  import opened Ids

  /** One test case. The four optional members are absent when the document
      lacks them; `extra` holds every other member (steps, remarks, ...). */
  datatype Case = Case(
    id: int,
    caseName: string,
    isTested: Option<Json>,
    completion: Option<Json>,
    httpResult: Option<Field>,
    imageResult: Option<Field>,
    extra: seq<(string, Json)>)

  /** One module (a "function" in the tool's vocabulary) and its `caseVoList`. */
  datatype Module = Module(id: int, name: string, cases: seq<Case>, extra: seq<(string, Json)>)

  type Plan = seq<Module>

  /** The cursor ids; None or "" mean "no selection". */
  datatype Cursor = Cursor(moduleKey: Option<string>, caseKey: Option<string>)

  /** The case counts as tested: its `isTested` member is present and truthy. */
  predicate Tested(c: Case) {
    c.isTested.Some? && Truthy(c.isTested.value)
  }

  /** Python truthiness of a cursor id. */
  predicate Selected(key: Option<string>) {
    key.Some? && key.value != ""
  }

  /** The cursor key is set and is the decimal text of `id`. */
  predicate Names(id: int, key: Option<string>) {
    key == Some(IdText(id))
  }

  /** A key that names some id is a selection. */
  lemma NamesSelected(id: int, key: Option<string>)
    requires Names(id, key)
    ensures Selected(key)
  {
  }

  predicate UniqueCaseIds(cases: seq<Case>) {
    forall i, j :: 0 <= i < j < |cases| ==> cases[i].id != cases[j].id
  }

  predicate UniqueModuleIds(plan: Plan) {
    forall i, j :: 0 <= i < j < |plan| ==> plan[i].id != plan[j].id
  }

  /** Module `mi` and its case `ci` are both named by the cursor. */
  predicate IsMatch(plan: Plan, cur: Cursor, mi: int, ci: int) {
    && 0 <= mi < |plan|
    && 0 <= ci < |plan[mi].cases|
    && Names(plan[mi].id, cur.moduleKey)
    && Names(plan[mi].cases[ci].id, cur.caseKey)
  }

  /** The position of the first element whose id `key` names, or -1 when no
      element's id text equals the key. */
  function FirstNamed<T>(xs: seq<T>, id: T -> int, key: Option<string>): (r: int)
    ensures -1 <= r < |xs|
    ensures r >= 0 ==> Names(id(xs[r]), key)
    ensures forall j :: 0 <= j < |xs| && (r == -1 || j < r) ==> !Names(id(xs[j]), key)
    decreases |xs|
  {
    if |xs| == 0 then -1
    else if Names(id(xs[0]), key) then 0
    else
      var r := FirstNamed(xs[1..], id, key);
      assert forall j :: 1 <= j < |xs| ==> xs[1..][j - 1] == xs[j];
      if r == -1 then -1 else r + 1
  }

  /** With distinct ids, the key of the element at position `i` finds `i`. */
  lemma FirstNamedDistinct<T>(xs: seq<T>, id: T -> int, i: int)
    requires forall a, b :: 0 <= a < b < |xs| ==> id(xs[a]) != id(xs[b])
    requires 0 <= i < |xs|
    ensures FirstNamed(xs, id, Some(IdText(id(xs[i])))) == i
  {
    var r := FirstNamed(xs, id, Some(IdText(id(xs[i]))));
    if r != i {
      assert r >= 0 && r < i;
      IdTextInjective(id(xs[r]), id(xs[i]));
      assert false;
    }
  }

  /** The integer ids modules and cases are sorted and searched by; the cursor
      holds their decimal texts. */
  function ModuleId(m: Module): int { m.id }

  function CaseId(c: Case): int { c.id }

  /** The position of the first case named by `key` in a module's list, or -1. */
  function IndexOf(cases: seq<Case>, key: Option<string>): (r: int)
    ensures -1 <= r < |cases|
    ensures r >= 0 ==> Names(cases[r].id, key)
    ensures forall j :: 0 <= j < |cases| && (r == -1 || j < r) ==> !Names(cases[j].id, key)
  {
    FirstNamed(cases, CaseId, key)
  }

  /** With unique case ids, the key of the case at position `i` finds `i`. */
  lemma IndexOfUnique(cases: seq<Case>, i: int)
    requires UniqueCaseIds(cases)
    requires 0 <= i < |cases|
    ensures IndexOf(cases, Some(IdText(cases[i].id))) == i
  {
    FirstNamedDistinct(cases, CaseId, i);
  }

  /** The position of the first module named by `key` in the plan, or -1. */
  function ModuleIndex(plan: Plan, key: Option<string>): (r: int)
    ensures -1 <= r < |plan|
    ensures r >= 0 ==> Names(plan[r].id, key)
    ensures forall j :: 0 <= j < |plan| && (r == -1 || j < r) ==> !Names(plan[j].id, key)
  {
    FirstNamed(plan, ModuleId, key)
  }

  /** With unique module ids, the key of module `i` finds `i`. */
  lemma ModuleIndexUnique(plan: Plan, i: int)
    requires UniqueModuleIds(plan)
    requires 0 <= i < |plan|
    ensures ModuleIndex(plan, Some(IdText(plan[i].id))) == i
  {
    FirstNamedDistinct(plan, ModuleId, i);
  }

  /** No match at any position from module `mi` on that comes before `(m, c)`. */
  ghost predicate NoMatchBefore(plan: Plan, cur: Cursor, mi: nat, m: int, c: int) {
    forall m', c' :: mi <= m' && (m' < m || (m' == m && c' < c)) ==> !IsMatch(plan, cur, m', c')
  }

  /** The first (module, case) pair the cursor names, scanning modules from `mi`. */
  function FindFrom(plan: Plan, cur: Cursor, mi: nat): (r: Option<(nat, nat)>)
    requires mi <= |plan|
    ensures r.Some? ==> mi <= r.value.0 && IsMatch(plan, cur, r.value.0, r.value.1)
    ensures r.Some? ==> NoMatchBefore(plan, cur, mi, r.value.0, r.value.1)
    ensures r.None? ==> NoMatchBefore(plan, cur, mi, |plan|, 0)
    decreases |plan| - mi
  {
    if mi == |plan| then None
    else
      var k := IndexOf(plan[mi].cases, cur.caseKey);
      if Names(plan[mi].id, cur.moduleKey) && k >= 0 then
        assert forall c :: c < k ==> !IsMatch(plan, cur, mi, c);
        Some((mi, k))
      else
        assert forall c :: !IsMatch(plan, cur, mi, c);
        var r := FindFrom(plan, cur, mi + 1);
        if r.Some? then NoMatchStep(plan, cur, mi, r.value.0, r.value.1); r
        else NoMatchStep(plan, cur, mi, |plan|, 0); r
  }

  /** A module with no match extends the match-free region by one module. */
  lemma NoMatchStep(plan: Plan, cur: Cursor, mi: nat, m: int, c: int)
    requires forall c' :: !IsMatch(plan, cur, mi, c')
    requires NoMatchBefore(plan, cur, mi + 1, m, c)
    ensures NoMatchBefore(plan, cur, mi, m, c)
  {
  }

  /** The first (module, case) pair the cursor names, in plan order: the nested
      loops of `get_current_case`, `get_current_module_case` and the proxy hook. */
  function FindCase(plan: Plan, cur: Cursor): (r: Option<(nat, nat)>)
    ensures r.Some? ==> IsMatch(plan, cur, r.value.0, r.value.1)
    ensures r.Some? ==> NoMatchBefore(plan, cur, 0, r.value.0, r.value.1)
    ensures r.None? <==> forall m, c :: !IsMatch(plan, cur, m, c)
  {
    FindFrom(plan, cur, 0)
  }

  /** The two plans have the same ids at the same positions. */
  predicate SameShape(p: Plan, q: Plan) {
    && |p| == |q|
    && (forall i :: 0 <= i < |p| ==> p[i].id == q[i].id && |p[i].cases| == |q[i].cases|)
    && (forall i, k :: 0 <= i < |p| && 0 <= k < |p[i].cases| ==> p[i].cases[k].id == q[i].cases[k].id)
  }

  /** The cursor's target depends only on the ids and their positions. */
  lemma FindCaseShape(p: Plan, q: Plan, cur: Cursor)
    requires SameShape(p, q)
    ensures FindCase(p, cur) == FindCase(q, cur)
  {
    assert forall m, c :: IsMatch(p, cur, m, c) <==> IsMatch(q, cur, m, c);
  }

  /** Replace case `ci` of module `mi`. */
  function SetCase(plan: Plan, mi: int, ci: int, c: Case): (r: Plan)
    requires 0 <= mi < |plan| && 0 <= ci < |plan[mi].cases|
    ensures |r| == |plan| && |r[mi].cases| == |plan[mi].cases| && r[mi].cases[ci] == c
    ensures forall i :: 0 <= i < |plan| && i != mi ==> r[i] == plan[i]
    ensures r[mi].id == plan[mi].id && r[mi].name == plan[mi].name && r[mi].extra == plan[mi].extra
    ensures forall k :: 0 <= k < |plan[mi].cases| && k != ci ==> r[mi].cases[k] == plan[mi].cases[k]
  {
    plan[mi := plan[mi].(cases := plan[mi].cases[ci := c])]
  }

  /** Apply `f` to every case, keeping modules and positions. */
  function MapCases(plan: Plan, f: Case -> Case): (r: Plan)
    ensures |r| == |plan|
    ensures forall i :: 0 <= i < |plan| ==>
      r[i].id == plan[i].id && r[i].name == plan[i].name && r[i].extra == plan[i].extra
      && |r[i].cases| == |plan[i].cases|
    ensures forall i, k :: 0 <= i < |plan| && 0 <= k < |plan[i].cases| ==> r[i].cases[k] == f(plan[i].cases[k])
  {
    seq(|plan|, i requires 0 <= i < |plan| =>
      plan[i].(cases := seq(|plan[i].cases|, k requires 0 <= k < |plan[i].cases| => f(plan[i].cases[k]))))
  }

  // ---------------------------------------------------------------------------
  // load_data: sort modules by id, sort each module's cases by id, default isTested

  function MapSeq<A, B>(s: seq<A>, f: A -> B): (r: seq<B>)
    ensures |r| == |s| && forall i :: 0 <= i < |s| ==> r[i] == f(s[i])
  {
    seq(|s|, i requires 0 <= i < |s| => f(s[i]))
  }

  lemma MapSeqConcat<A, B>(a: seq<A>, b: seq<A>, f: A -> B)
    ensures MapSeq(a + b, f) == MapSeq(a, f) + MapSeq(b, f)
  {
    assert forall i :: 0 <= i < |a + b| ==> MapSeq(a + b, f)[i] == (MapSeq(a, f) + MapSeq(b, f))[i];
  }

  /** Mapping a permutation gives a permutation of the mapped sequence. */
  lemma {:induction false} MapPermutation<A, B>(s: seq<A>, t: seq<A>, f: A -> B)
    requires multiset(s) == multiset(t)
    ensures multiset(MapSeq(s, f)) == multiset(MapSeq(t, f))
    decreases |s|
  {
    if |s| > 0 {
      var x := s[0];
      assert x in multiset(t);
      var j :| 0 <= j < |t| && t[j] == x;
      var t' := t[..j] + t[j + 1..];
      assert t == t[..j] + [x] + t[j + 1..];
      assert s == [x] + s[1..];
      assert multiset(t) == multiset(t[..j]) + multiset{x} + multiset(t[j + 1..]);
      assert multiset(s) == multiset{x} + multiset(s[1..]);
      assert multiset(t') == multiset(t[..j]) + multiset(t[j + 1..]);
      calc {
        multiset(s[1..]);
        multiset(s) - multiset{x};
        multiset(t) - multiset{x};
        multiset(t');
      }
      MapPermutation(s[1..], t', f);
      MapSeqConcat([x], s[1..], f);
      MapSeqConcat(t[..j] + [x], t[j + 1..], f);
      MapSeqConcat(t[..j], [x], f);
      MapSeqConcat(t[..j], t[j + 1..], f);
    }
  }

  predicate SortedBy<T>(s: seq<T>, key: T -> int) {
    forall i, j :: 0 <= i < j < |s| ==> key(s[i]) <= key(s[j])
  }

  /** Put `x` in front of the first element whose key is not smaller. */
  function Insert<T>(x: T, s: seq<T>, key: T -> int): (r: seq<T>)
    requires SortedBy(s, key)
    ensures SortedBy(r, key)
    ensures multiset(r) == multiset(s) + multiset{x}
    ensures |r| == |s| + 1 && (r[0] == x || (|s| > 0 && r[0] == s[0]))
    decreases |s|
  {
    if |s| == 0 || key(x) <= key(s[0]) then
      SortedCons(x, s, key);
      [x] + s
    else
      var t := Insert(x, s[1..], key);
      assert s == [s[0]] + s[1..];
      // t starts with x or with s[1], both no smaller than s[0], and t is sorted
      assert key(s[0]) <= key(t[0]);
      assert forall j :: 0 <= j < |t| ==> key(t[0]) <= key(t[j]);
      SortedCons(s[0], t, key);
      assert multiset([s[0]] + t) == multiset{s[0]} + multiset(t);
      [s[0]] + t
  }

  lemma SortedCons<T>(h: T, t: seq<T>, key: T -> int)
    requires SortedBy(t, key)
    requires forall j :: 0 <= j < |t| ==> key(h) <= key(t[j])
    ensures SortedBy([h] + t, key)
  {
    var r := [h] + t;
    forall i, j | 0 <= i < j < |r| ensures key(r[i]) <= key(r[j]) {
      if i > 0 {
        assert r[i] == t[i - 1] && r[j] == t[j - 1];
      } else {
        assert r[j] == t[j - 1];
      }
    }
  }

  /** Insertion sort by an integer key: a stable sort, like Python's `list.sort`. */
  function SortBy<T>(s: seq<T>, key: T -> int): (r: seq<T>)
    ensures SortedBy(r, key)
    ensures multiset(r) == multiset(s)
    ensures |r| == |s|
    decreases |s|
  {
    if |s| == 0 then []
    else
      assert s == [s[0]] + s[1..];
      Insert(s[0], SortBy(s[1..], key), key)
  }

  /** On load, a case without an `isTested` member gets `false`; a case that has
      one keeps it. */
  function DefaultTested(c: Case): (r: Case)
    ensures r.isTested.Some?
    ensures c.isTested.Some? ==> r == c
    ensures c.isTested.None? ==> r.isTested == Some(Bool(false))
    ensures r.(isTested := c.isTested) == c
    ensures Tested(r) == Tested(c)
  {
    if c.isTested.Some? then c else c.(isTested := Some(Bool(false)))
  }

  /** The per-module part of `load_data`. */
  function NormaliseModule(m: Module): (r: Module)
    ensures r.id == m.id && r.name == m.name && r.extra == m.extra
    ensures SortedBy(r.cases, CaseId)
    ensures forall k :: 0 <= k < |r.cases| ==> r.cases[k].isTested.Some?
    ensures multiset(r.cases) == multiset(MapSeq(m.cases, DefaultTested))
  {
    var sorted := SortBy(m.cases, CaseId);
    var cases := MapSeq(sorted, DefaultTested);
    MapPermutation(sorted, m.cases, DefaultTested);
    assert forall i, j :: 0 <= i < j < |cases| ==> cases[i].id == sorted[i].id && cases[j].id == sorted[j].id;
    m.(cases := cases)
  }

  /** `load_data`: the plan sorted by module id, each module's cases sorted by
      case id, and every case given an `isTested` member. */
  function LoadData(plan: Plan): (r: Plan)
    ensures |r| == |plan|
    ensures SortedBy(r, ModuleId)
    ensures forall i :: 0 <= i < |r| ==> SortedBy(r[i].cases, CaseId)
    ensures forall i, k :: 0 <= i < |r| && 0 <= k < |r[i].cases| ==> r[i].cases[k].isTested.Some?
    ensures multiset(r) == multiset(MapSeq(plan, NormaliseModule))
  {
    var sorted := SortBy(plan, ModuleId);
    var r := MapSeq(sorted, NormaliseModule);
    MapPermutation(sorted, plan, NormaliseModule);
    forall i | 0 <= i < |r|
      ensures r[i].id == sorted[i].id && SortedBy(r[i].cases, CaseId)
      ensures forall k :: 0 <= k < |r[i].cases| ==> r[i].cases[k].isTested.Some?
    {
      var m := NormaliseModule(sorted[i]);
      assert r[i] == m;
    }
    r
  }

  /** Sorting what is already sorted keeps it as it is. */
  lemma {:induction false} SortBySorted<T>(s: seq<T>, key: T -> int)
    requires SortedBy(s, key)
    ensures SortBy(s, key) == s
    decreases |s|
  {
    if |s| > 0 {
      SortBySorted(s[1..], key);
      assert s == [s[0]] + s[1..];
    }
  }

  lemma NormaliseModuleIdempotent(m: Module)
    ensures NormaliseModule(NormaliseModule(m)) == NormaliseModule(m)
  {
    var once := NormaliseModule(m);
    SortBySorted(once.cases, CaseId);
    assert MapSeq(once.cases, DefaultTested) == once.cases;
  }

  /** Reloading a loaded plan changes nothing, so the reload after every write
      the tool makes is stable. */
  lemma LoadDataIdempotent(plan: Plan)
    ensures LoadData(LoadData(plan)) == LoadData(plan)
  {
    var once := LoadData(plan);
    SortBySorted(once, ModuleId);
    var sorted := SortBy(plan, ModuleId);
    forall i | 0 <= i < |once| ensures NormaliseModule(once[i]) == once[i] {
      assert once[i] == NormaliseModule(sorted[i]);
      NormaliseModuleIdempotent(sorted[i]);
    }
    assert MapSeq(once, NormaliseModule) == once;
  }
}

=== FILE: transforms.dfy ===
/** Whole-plan transforms of the desktop tool: resetting results, marking every
    case untested on import, the export pre-processing, and appending a
    screenshot bug record to the active case. File contents are values passed
    in and returned: each function yields the document the tool writes. */
module Transforms {
  import opened JsonValues
  import opened Ids
  import opened TestPlan
  import opened Status

  // ---------------------------------------------------------------------------
  // Untested plans and what the progress count says about them

  predicate AllUntested(plan: Plan) {
    forall i, k :: 0 <= i < |plan| && 0 <= k < |plan[i].cases| ==> plan[i].cases[k].isTested == Some(Bool(false))
  }

  function TotalCases(plan: Plan): nat
    decreases |plan|
  {
    if |plan| == 0 then 0 else TotalCases(plan[..|plan| - 1]) + |plan[|plan| - 1].cases|
  }

  function NonEmptyModules(plan: Plan): nat
    decreases |plan|
  {
    if |plan| == 0 then 0 else NonEmptyModules(plan[..|plan| - 1]) + (if |plan[|plan| - 1].cases| > 0 then 1 else 0)
  }

  lemma {:induction false} CountAllRemaining(cases: seq<Case>)
    requires forall k :: 0 <= k < |cases| ==> !Tested(cases[k])
    ensures CountRemaining(cases) == |cases|
    decreases |cases|
  {
    if |cases| > 0 {
      CountAllRemaining(cases[..|cases| - 1]);
    }
  }

  /** On an untested plan every case and every non-empty module is still to do. */
  lemma {:induction false} UntestedAllRemaining(plan: Plan)
    requires AllUntested(plan)
    ensures RemainingCases(plan) == TotalCases(plan)
    ensures RemainingModules(plan) == NonEmptyModules(plan)
    decreases |plan|
  {
    if |plan| > 0 {
      var init := plan[..|plan| - 1];
      assert forall i :: 0 <= i < |init| ==> init[i] == plan[i];
      UntestedAllRemaining(init);
      CountAllRemaining(plan[|plan| - 1].cases);
    }
  }

  // ---------------------------------------------------------------------------
  // reset_test_results

  function ResetCase(c: Case): (r: Case)
    ensures r.httpResult == Some(Raw(Arr([])))
    ensures r.imageResult == Some(Raw(Null))
    ensures r.isTested == Some(Bool(false))
    ensures r.(httpResult := c.httpResult, imageResult := c.imageResult, isTested := c.isTested) == c
  {
    c.(httpResult := Some(Raw(Arr([]))), imageResult := Some(Raw(Null)), isTested := Some(Bool(false)))
  }

  /** The document `reset_test_results` writes: every case's results cleared and
      marked untested; ids, names, order and every other member kept. The tool
      then reloads it with `LoadData`. */
  function ResetTestResults(file: Plan): (r: Plan)
    ensures SameShape(file, r) && AllUntested(r)
    ensures forall i :: 0 <= i < |file| ==> r[i].name == file[i].name && r[i].extra == file[i].extra
    ensures forall i, k :: 0 <= i < |file| && 0 <= k < |file[i].cases| ==>
      var (c, c') := (file[i].cases[k], r[i].cases[k]);
      && c'.httpResult == Some(Raw(Arr([]))) && c'.imageResult == Some(Raw(Null))
      && c'.(httpResult := c.httpResult, imageResult := c.imageResult, isTested := c.isTested) == c
    ensures RemainingCases(r) == TotalCases(r)
  {
    var r := MapCases(file, ResetCase);
    UntestedAllRemaining(r);
    r
  }

  /** `reset_test_results` writes and reloads without saving, so every case keeps
      its old `completion`: a saved plan with a tested case is left out of sync,
      that case untested with `completion` 1, until the next save. */
  lemma ResetKeepsCompletion(file: Plan, i: int, k: int)
    requires 0 <= i < |file| && 0 <= k < |file[i].cases|
    ensures ResetTestResults(file)[i].cases[k].completion == file[i].cases[k].completion
    ensures AllSynced(file) && Tested(file[i].cases[k]) ==>
      && ResetTestResults(file)[i].cases[k].completion == Some(Num(1))
      && !CompletionSynced(ResetTestResults(file)[i].cases[k])
      && !AllSynced(ResetTestResults(file))
  {
  }

  /** `save_data` applied directly to a reset plan would bring every case back
      to `completion` 0. The tool itself saves only from `toggle_tested`; see
      `ToggleAfterReset`. */
  lemma ResetThenSave(file: Plan)
    ensures var r := SaveData(ResetTestResults(file));
      forall i, k :: 0 <= i < |r| && 0 <= k < |r[i].cases| ==> r[i].cases[k].completion == Some(Num(0))
  {
  }

  /** Reloading keeps an all-untested plan all untested: `load_data` only
      reorders, and an existing `isTested` is kept. */
  lemma LoadDataKeepsUntested(plan: Plan)
    requires AllUntested(plan)
    ensures AllUntested(LoadData(plan))
  {
    var r := LoadData(plan);
    var normalised := MapSeq(plan, NormaliseModule);
    forall i, k | 0 <= i < |r| && 0 <= k < |r[i].cases|
      ensures r[i].cases[k].isTested == Some(Bool(false))
    {
      var m := r[i];
      assert m in multiset(r);
      assert m in normalised;
      var j :| 0 <= j < |normalised| && normalised[j] == m;
      var c := m.cases[k];
      var defaulted := MapSeq(plan[j].cases, DefaultTested);
      assert c in multiset(m.cases);
      assert c in defaulted;
      var l :| 0 <= l < |defaulted| && defaulted[l] == c;
      assert plan[j].cases[l].isTested == Some(Bool(false));
    }
  }

  /** What the tool does after a reset: it reloads the reset document, and the
      next save comes from a confirmed `toggle_tested`. The toggled case is then
      tested with `completion` 1 and every other case untested with `completion`
      0; with no current case nothing is saved and `completion` stays stale. */
  lemma ToggleAfterReset(file: Plan, cur: Cursor)
    ensures var p := LoadData(ResetTestResults(file));
      GetCurrentCase(p, cur).None? ==> ToggleTested(p, cur, true) == p
    ensures var p := LoadData(ResetTestResults(file));
      var r := ToggleTested(p, cur, true);
      GetCurrentCase(p, cur).Some? ==>
        var (mi, ci) := FindCase(p, cur).value;
        && Tested(r[mi].cases[ci]) && r[mi].cases[ci].completion == Some(Num(1))
        && forall i, k :: 0 <= i < |p| && 0 <= k < |p[i].cases| && (i, k) != (mi, ci) ==>
             !Tested(r[i].cases[k]) && r[i].cases[k].completion == Some(Num(0))
  {
    var p := LoadData(ResetTestResults(file));
    LoadDataKeepsUntested(ResetTestResults(file));
    assert AllUntested(p);
  }

  // ---------------------------------------------------------------------------
  // generate_import_json and init_error_json_from_export

  function MarkUntested(c: Case): (r: Case)
    ensures r.isTested == Some(Bool(false))
    ensures r.(isTested := c.isTested) == c
  {
    c.(isTested := Some(Bool(false)))
  }

  /** `generate_import_json`: `source` is the parsed source file, None when it
      could not be read or parsed (the error is logged and nothing is written).
      Otherwise the written document differs only in `isTested = false`. */
  function GenerateImportJson(source: Option<Plan>): (r: Option<Plan>)
    ensures r.Some? <==> source.Some?
    ensures r.Some? ==> SameShape(source.value, r.value) && AllUntested(r.value)
    ensures r.Some? ==> forall i :: 0 <= i < |r.value| ==>
      r.value[i].name == source.value[i].name && r.value[i].extra == source.value[i].extra
    ensures r.Some? ==> forall i, k :: 0 <= i < |r.value| && 0 <= k < |r.value[i].cases| ==>
      r.value[i].cases[k].(isTested := source.value[i].cases[k].isTested) == source.value[i].cases[k]
  {
    match source
    case None => None
    case Some(p) => Some(MapCases(p, MarkUntested))
  }

  /** `init_error_json_from_export`: the exported plan with every case untested. */
  function InitErrorJsonFromExport(exported: Plan): (r: Plan)
    ensures SameShape(exported, r) && AllUntested(r)
    ensures forall i :: 0 <= i < |r| ==> r[i].name == exported[i].name && r[i].extra == exported[i].extra
    ensures forall i, k :: 0 <= i < |r| && 0 <= k < |r[i].cases| ==>
      r[i].cases[k].(isTested := exported[i].cases[k].isTested) == exported[i].cases[k]
    ensures RemainingCases(r) == TotalCases(r)
  {
    var r := MapCases(exported, MarkUntested);
    UntestedAllRemaining(r);
    r
  }

  // ---------------------------------------------------------------------------
  // export_data (data pre-processing)

  /** A case as the export writes it: `httpResult` is null or a truthy value and
      `completion` is present and not null. */
  predicate ExportReady(c: Case) {
    && c.httpResult.Some? && (c.httpResult.value == Raw(Null) || FieldTruthy(c.httpResult.value))
    && c.completion.Some? && c.completion.value != Null
  }

  function ExportCase(c: Case): (r: Case)
    ensures ExportReady(r)
    ensures c.httpResult.Some? && FieldTruthy(c.httpResult.value) ==> r.httpResult == c.httpResult
    ensures !(c.httpResult.Some? && FieldTruthy(c.httpResult.value)) ==> r.httpResult == Some(Raw(Null))
    ensures c.completion.Some? && c.completion.value != Null ==> r.completion == c.completion
    ensures c.completion.None? || c.completion.value == Null ==> r.completion == Some(Num(0))
    ensures r.(httpResult := c.httpResult, completion := c.completion) == c
  {
    var http := if c.httpResult.Some? && FieldTruthy(c.httpResult.value) then c.httpResult else Some(Raw(Null));
    var completion := if c.completion.None? || c.completion.value == Null then Some(Num(0)) else c.completion;
    c.(httpResult := http, completion := completion)
  }

  /** The deep copy `export_data` writes into the archive. The tool's own plan is
      an input here and is not changed. */
  function ExportCopy(data: Plan): (r: Plan)
    ensures SameShape(data, r)
    ensures forall i :: 0 <= i < |r| ==> r[i].name == data[i].name && r[i].extra == data[i].extra
    ensures forall i, k :: 0 <= i < |r| && 0 <= k < |r[i].cases| ==> ExportReady(r[i].cases[k])
    ensures forall i, k :: 0 <= i < |r| && 0 <= k < |r[i].cases| ==>
      r[i].cases[k].(httpResult := data[i].cases[k].httpResult, completion := data[i].cases[k].completion)
        == data[i].cases[k]
    ensures forall i, k :: 0 <= i < |r| && 0 <= k < |r[i].cases| ==>
      var (c, c') := (data[i].cases[k], r[i].cases[k]);
      && (c.httpResult.Some? && FieldTruthy(c.httpResult.value) ==> c'.httpResult == c.httpResult)
      && (!(c.httpResult.Some? && FieldTruthy(c.httpResult.value)) ==> c'.httpResult == Some(Raw(Null)))
      && (c.completion.Some? && c.completion.value != Null ==> c'.completion == c.completion)
      && (c.completion.None? || c.completion.value == Null ==> c'.completion == Some(Num(0)))
  {
    MapCases(data, ExportCase)
  }

  /** Exporting an exported copy changes nothing more. */
  lemma ExportCopyIdempotent(data: Plan)
    ensures ExportCopy(ExportCopy(data)) == ExportCopy(data)
  {
    var once := ExportCopy(data);
    var twice := ExportCopy(once);
    assert forall i :: 0 <= i < |once| ==> twice[i].cases == once[i].cases;
    assert forall i :: 0 <= i < |once| ==> twice[i] == once[i];
  }

  // ---------------------------------------------------------------------------
  // append_screenshot_result (data part)

  /** The old `imageResult` list before a bug record is appended; None when
      `json.loads` is handed a value that is not a string and raises. */
  function ImageHistory(f: Option<Field>): (r: Option<seq<Json>>)
    ensures f.None? || !FieldTruthy(f.value) ==> r == Some([])
    ensures f.Some? && FieldTruthy(f.value) && IsText(f.value) ==>
      r.Some? && r.value == match Decode(f.value)
        case None => []
        case Some(Arr(xs)) => xs
        case Some(v) => [v]
    ensures r.None? <==> f.Some? && FieldTruthy(f.value) && !IsText(f.value)
  {
    if f.None? || !FieldTruthy(f.value) then Some([])
    else match f.value
      case Encoded(Arr(xs)) => Some(xs)
      case Encoded(v) => Some([v])
      case Raw(Str(_)) => Some([])
      case Raw(_) => None
  }

  /** The case with `bug` appended to its decoded `imageResult` list. */
  function WithBug(c: Case, bug: Json): (r: Case)
    requires ImageHistory(c.imageResult).Some?
    ensures r.imageResult.Some? && IsText(r.imageResult.value)
    ensures Decode(r.imageResult.value) == Some(Arr(ImageHistory(c.imageResult).value + [bug]))
    ensures r.(imageResult := c.imageResult) == c
  {
    c.(imageResult := Some(Encode(Arr(ImageHistory(c.imageResult).value + [bug]))))
  }

  /** One module's inner loop: the first case named by `key` gets the record. */
  function AppendInModule(cases: seq<Case>, key: Option<string>, bug: Json): (r: Option<seq<Case>>)
    ensures var k := IndexOf(cases, key);
      r.None? <==> k >= 0 && ImageHistory(cases[k].imageResult).None?
    ensures r.Some? ==> |r.value| == |cases|
    ensures r.Some? ==> var k := IndexOf(cases, key);
      forall j :: 0 <= j < |cases| ==> r.value[j] == if j == k then WithBug(cases[j], bug) else cases[j]
  {
    var k := IndexOf(cases, key);
    if k == -1 then Some(cases)
    else if ImageHistory(cases[k].imageResult).None? then None
    else Some(cases[k := WithBug(cases[k], bug)])
  }

  /** Module `i` is one the cursor's module id names and whose case loop hits. */
  predicate Targeted(file: Plan, cur: Cursor, i: int) {
    0 <= i < |file| && Names(file[i].id, cur.moduleKey) && IndexOf(file[i].cases, cur.caseKey) >= 0
  }

  /** `append_screenshot_result`: `file` is the plan read from disk. In every module
      whose id the cursor names, the first case it names gets `bug` appended to
      its `imageResult` list; None when one of those has a truthy non-string
      `imageResult` (`json.loads` raises and nothing is written). The tool then
      reloads the written plan with `LoadData`. */
  function AppendScreenshotResult(file: Plan, cur: Cursor, bug: Json): (r: Option<Plan>)
    ensures r.None? <==> exists i ::
      && Targeted(file, cur, i)
      && ImageHistory(file[i].cases[IndexOf(file[i].cases, cur.caseKey)].imageResult).None?
    ensures r.Some? ==> SameShape(file, r.value)
    ensures r.Some? ==> forall i :: 0 <= i < |file| ==>
      r.value[i].name == file[i].name && r.value[i].extra == file[i].extra
    ensures r.Some? ==> forall i, k :: 0 <= i < |file| && 0 <= k < |file[i].cases| ==>
      r.value[i].cases[k] ==
        if Targeted(file, cur, i) && k == IndexOf(file[i].cases, cur.caseKey)
        then WithBug(file[i].cases[k], bug) else file[i].cases[k]
  {
    if exists i :: 0 <= i < |file| && Targeted(file, cur, i) && ImageHistory(file[i].cases[IndexOf(file[i].cases, cur.caseKey)].imageResult).None?
    then None
    else Some(seq(|file|, i requires 0 <= i < |file| => AppendToModule(file[i], cur, bug)))
  }

  /** One pass of the outer loop: a module the cursor's module id names gets the
      record on the first case the case id names. */
  function AppendToModule(m: Module, cur: Cursor, bug: Json): (r: Module)
    requires Names(m.id, cur.moduleKey) && IndexOf(m.cases, cur.caseKey) >= 0 ==>
      ImageHistory(m.cases[IndexOf(m.cases, cur.caseKey)].imageResult).Some?
    ensures r.id == m.id && r.name == m.name && r.extra == m.extra && |r.cases| == |m.cases|
    ensures forall k :: 0 <= k < |m.cases| ==>
      r.cases[k] ==
        if Names(m.id, cur.moduleKey) && k == IndexOf(m.cases, cur.caseKey)
        then WithBug(m.cases[k], bug) else m.cases[k]
  {
    if Names(m.id, cur.moduleKey) then m.(cases := AppendInModule(m.cases, cur.caseKey, bug).value) else m
  }

  /** With unique module ids the screenshot record lands on the cursor's case
      alone: its decoded list grows by exactly one and nothing else changes. */
  lemma AppendScreenshotSingle(file: Plan, cur: Cursor, bug: Json)
    requires UniqueModuleIds(file)
    requires AppendScreenshotResult(file, cur, bug).Some?
    ensures var r := AppendScreenshotResult(file, cur, bug).value;
      FindCase(file, cur).None? ==> r == file
    ensures var r := AppendScreenshotResult(file, cur, bug).value;
      FindCase(file, cur).Some? ==>
        var (mi, ci) := FindCase(file, cur).value;
        && ImageHistory(file[mi].cases[ci].imageResult).Some?
        && r == SetCase(file, mi, ci, WithBug(file[mi].cases[ci], bug))
        && |Decode(r[mi].cases[ci].imageResult.value).value.items|
           == |ImageHistory(file[mi].cases[ci].imageResult).value| + 1
  {
    var r := AppendScreenshotResult(file, cur, bug).value;
    TargetedIsFound(file, cur);
    match FindCase(file, cur)
    case None =>
      forall i | 0 <= i < |file| ensures r[i] == file[i] {
        assert r[i].cases == file[i].cases;
      }
    case Some((mi, ci)) =>
      var s := SetCase(file, mi, ci, WithBug(file[mi].cases[ci], bug));
      forall i | 0 <= i < |file| ensures r[i] == s[i] {
        assert r[i].cases == s[i].cases;
      }
  }

  /** With unique module ids the only targeted module is the one FindCase picks,
      and the case loop in it stops at FindCase's case. */
  lemma TargetedIsFound(file: Plan, cur: Cursor)
    requires UniqueModuleIds(file)
    ensures FindCase(file, cur).None? ==> forall i :: 0 <= i < |file| ==> !Targeted(file, cur, i)
    ensures FindCase(file, cur).Some? ==>
      var (mi, ci) := FindCase(file, cur).value;
      && IndexOf(file[mi].cases, cur.caseKey) == ci
      && forall i :: 0 <= i < |file| ==> (Targeted(file, cur, i) <==> i == mi)
  {
    match FindCase(file, cur)
    case None =>
      assert forall i :: Targeted(file, cur, i) ==> IsMatch(file, cur, i, IndexOf(file[i].cases, cur.caseKey));
    case Some((mi, ci)) =>
      var k := IndexOf(file[mi].cases, cur.caseKey);
      assert k >= 0 by {
        assert Names(file[mi].cases[ci].id, cur.caseKey);
      }
      assert IsMatch(file, cur, mi, k);
      forall i | 0 <= i < |file| ensures Targeted(file, cur, i) <==> i == mi {
        if Targeted(file, cur, i) && i != mi {
          IdTextInjective(file[i].id, file[mi].id);
        }
      }
  }

  // ---------------------------------------------------------------------------
  // Screenshot files that reset and export pick up

  /** A screenshot file name: it starts with `screenshot_` and ends with `.png`. */
  predicate IsScreenshotFile(name: string) {
    && |name| >= |"screenshot_"| && name[..|"screenshot_"|] == "screenshot_"
    && |name| >= |".png"| && name[|name| - |".png"|..] == ".png"
  }

  /** The name a screenshot taken at `timestamp` seconds gets. */
  function ScreenshotName(timestamp: int): (r: string)
    ensures IsScreenshotFile(r)
  {
    var r := "screenshot_" + IdText(timestamp) + ".png";
    assert r[..|"screenshot_"|] == "screenshot_";
    assert r[|r| - |".png"|..] == ".png";
    r
  }

  /** `a` is `b` with some entries dropped and the rest kept in order. */
  predicate InOrderWithin<T(==)>(a: seq<T>, b: seq<T>)
    decreases |b|
  {
    |a| == 0 || (|b| > 0 && ((a[0] == b[0] && InOrderWithin(a[1..], b[1..])) || InOrderWithin(a, b[1..])))
  }

  /** The directory entries reset deletes and export archives, in listing order:
      every screenshot entry as often as it is listed, and nothing else. */
  function ScreenshotFiles(files: seq<string>): (r: seq<string>)
    ensures forall f :: f in r <==> f in files && IsScreenshotFile(f)
    ensures forall f :: multiset(r)[f] == if IsScreenshotFile(f) then multiset(files)[f] else 0
    ensures InOrderWithin(r, files)
    ensures |r| <= |files|
    decreases |files|
  {
    if |files| == 0 then []
    else
      var rest := ScreenshotFiles(files[1..]);
      assert forall f :: f in files <==> f == files[0] || f in files[1..];
      assert multiset(files) == multiset([files[0]]) + multiset(files[1..]) by {
        assert files == [files[0]] + files[1..];
      }
      if IsScreenshotFile(files[0]) then
        var r := [files[0]] + rest;
        assert r[1..] == rest;
        r
      else rest
  }
}
